=== FILE: README.md ===
# Hospital staff directory — a Dafny model

The app `dog.ctf.contacts` is a hospital staff directory for Android. It
keeps a list of employees: name, department, position, office phone and
mobile phone. It seeds that list from a bundled `employees.json`, saves it
to a private `local_employees.json`, and lets the user do several things:

- search the list;
- browse staff grouped by department or by position, with head counts;
- import the device address book;
- export selected employees to the address book;
- switch theme and font size.

This project models the core of that app as pure Dafny functions over
immutable values, and proves what each operation guarantees. The modules
follow the app's classes:

| module | file | models |
|---|---|---|
| `Model` | employee.dfy | the `Employee` record and its searchable fields |
| `Seqs`, `Text`, `Ordering`, `Optional` | seqs.dfy, text.dfy, ordering.dfy, optional.dfy | the Kotlin library behaviour the app relies on: `filter`, `contains(ignoreCase = true)`, `isBlank`, `toInt`, `distinct().sorted()` |
| `RecordStore` | record_store.dfy | `EmployeeDataManager`: seed merge, local file load and save, searches |
| `Aggregation` | aggregation.dfy | the department and position head counts of `DepartmentsViewModel` and `PositionsViewModel` |
| `ViewModels` | view_models.dfy | `HomeViewModel`, the summary and detail view models, the import merge of `MainActivity`, and the navigation arguments |
| `ContactImport` | importer.dfy | `ContactsImporter.importContacts` and `MainActivity.readLocalContacts` |
| `ContactExport` | exporter.dfy | `ContactsExporter` and the export loop of `HomeFragment` |
| `Selection` | selection.dfy | `EmployeeAdapter`'s highlight set and `HomeFragment`'s selection mode |
| `Theme` | theme.dfy | `ThemeStyle`'s colour maps and font-size tables |

## How the platform appears in the model

- **Files and JSON.** The seed and the local file are inputs, read at the
  level of parsed JSON elements:
  - a read can fail (`IoFailure`) or yield a document;
  - a document is an array of elements or not an array;
  - an element is an object with a field map, or some other value.

  Serialising and parsing the JSON text is the platform's job. A failed
  write is a boolean input.
- **Content provider.** The device address book is an input:
  - a contact query yields rows;
  - each row carries the result of its own phone query;
  - each cursor cell is one of: the column is missing, SQL NULL, the getter
    throws, or a value.

  When exporting, the address book is the sequence of display names it
  holds, because the duplicate check asks nothing else of it. Whether each
  `applyBatch` succeeds, and whether each duplicate-check cursor comes back
  `null`, are inputs.
- **View models.** A view model is a `Screen`: its store, the value it last
  published (`None` before the first), and its error text.
- **Clock.** `System.currentTimeMillis()` in the test contact's name is a
  parameter.

Two behaviours of the selection mode that the contracts make visible:

- The employee-list observer hands new rows to the adapter, which drops
  its highlight set, but the fragment's export list is left alone.
  `Selection.ShowEmployeesBreaksSync` proves the two agree afterwards
  exactly when nothing was selected.
- With a row repeated in the list, select-all followed by one tap leaves a
  copy in the export list while the row is no longer highlighted.
  `Selection.RepeatedRowStaysExported` exhibits this.

## Model

| member | source | states |
|---|---|---|
| RecordStore.ParseEmployee | app/src/main/java/dog/ctf/contacts/data/EmployeeDataManager.kt:131-139 | an element yields an employee exactly when it is an object holding all five keys, and each field of the employee is the text of its key: a string as it is, any other scalar as its JSON text |
| RecordStore.ParseEmployees | app/src/main/java/dog/ctf/contacts/data/EmployeeDataManager.kt:34-41 | the array parses all-or-nothing: a result exists iff every element parses, and then it is those records in order |
| RecordStore.SaveParseRoundTrip | app/src/main/java/dog/ctf/contacts/data/EmployeeDataManager.kt:93-118 | what `saveEmployeesToLocal` writes parses back to exactly the list that was saved |
| RecordStore.ParseEmployeeRoundTrip | app/src/main/java/dog/ctf/contacts/data/EmployeeDataManager.kt:98-104 | one serialised employee object parses back to the same employee |
| RecordStore.LoadLocal | app/src/main/java/dog/ctf/contacts/data/EmployeeDataManager.kt:65-88 | a missing file, a read error or a parse error keeps the previous list; a readable file replaces it with its records |
| RecordStore.NewStore | app/src/main/java/dog/ctf/contacts/data/EmployeeDataManager.kt:18-24 | a new manager holds the local file's records, and nothing when there is no file |
| RecordStore.MergeSeed | app/src/main/java/dog/ctf/contacts/data/EmployeeDataManager.kt:44-53 | the merged list starts with the seed records; after them come, in their old order and each as often as before, exactly the held records whose name is no seed name |
| RecordStore.MergeSeedIdempotent | app/src/main/java/dog/ctf/contacts/data/EmployeeDataManager.kt:44-53 | loading the same seed a second time changes nothing |
| RecordStore.MergeSeedDisjoint | app/src/main/java/dog/ctf/contacts/data/EmployeeDataManager.kt:44-53 | when no held name clashes with the seed, the merge loses nothing: seed followed by held |
| RecordStore.MergeSeedNames | app/src/main/java/dog/ctf/contacts/data/EmployeeDataManager.kt:44-53 | with unique names on both sides, the merged names stay unique and are the union of both sides' names |
| RecordStore.LoadEmployeesFromJson | app/src/main/java/dog/ctf/contacts/data/EmployeeDataManager.kt:31-60 | an I/O error returns false and a parse error escapes, both with the store unchanged; success leaves the store holding the seed merge of the parsed records over the old list |
| RecordStore.SaveEmployeesToLocal | app/src/main/java/dog/ctf/contacts/data/EmployeeDataManager.kt:93-118 | a successful write lets a fresh manager read back the same list; a failed write leaves the file as it was; the in-memory list never changes |
| RecordStore.UpdateEmployeeList | app/src/main/java/dog/ctf/contacts/data/EmployeeDataManager.kt:123-126 | `getAllEmployees` answers the new list even when the write fails; a successful write survives a restart |
| RecordStore.SearchByField | app/src/main/java/dog/ctf/contacts/data/EmployeeDataManager.kt:151-170 | the field search keeps list order and selects exactly the records whose field contains the query ignoring case, each as often as it occurs; an empty query returns the list |
| RecordStore.Search | app/src/main/java/dog/ctf/contacts/data/EmployeeDataManager.kt:189-195 | an empty query returns the whole list; otherwise exactly the records whose name or department contains the query, in list order, each as often as it occurs |
| RecordStore.SearchCoversFieldSearches | app/src/main/java/dog/ctf/contacts/data/EmployeeDataManager.kt:151-195 | name-only and department-only results are sub-lists of the combined search |
| RecordStore.DistinctSorted | app/src/main/java/dog/ctf/contacts/data/EmployeeDataManager.kt:175-184 | the department or position list is strictly ascending, repeat-free, and holds exactly the values present |
| Ordering.SortDistinct | app/src/main/java/dog/ctf/contacts/data/EmployeeDataManager.kt:176 | `distinct().sorted()` gives a strictly ascending list with the same set of values |
| Ordering.AscendingUnique | app/src/main/java/dog/ctf/contacts/data/EmployeeDataManager.kt:176 | two strictly ascending lists with the same values are equal, so the sorted distinct list is determined by its values |
| Ordering.InsertSorted | app/src/main/java/dog/ctf/contacts/data/EmployeeDataManager.kt:176 | inserting into an ascending list keeps it ascending and adds exactly the new value |
| Text.QueryCaseIrrelevant | app/src/main/java/dog/ctf/contacts/data/EmployeeDataManager.kt:153 | `contains(ignoreCase = true)` gives the same answer for a query and its upper-cased form |
| Text.LessTotal | app/src/main/java/dog/ctf/contacts/ui/departments/DepartmentsViewModel.kt:48 | string order is total, so sorting by name is well defined |
| Text.LessTransitive | app/src/main/java/dog/ctf/contacts/ui/departments/DepartmentsViewModel.kt:48 | string order is transitive |
| Text.ParseInt | app/src/main/java/dog/ctf/contacts/utils/ContactsImporter.kt:66-71 | `toInt` succeeds only on an optional sign followed by digits, and only within the 32-bit range |
| Text.ParseFormatRoundTrip | app/src/main/java/dog/ctf/contacts/utils/ContactsImporter.kt:66-71 | every count in range that the cursor prints as decimal reads back as itself |
| Aggregation.CountMap | app/src/main/java/dog/ctf/contacts/ui/departments/DepartmentsViewModel.kt:37-43 | the counting map holds exactly the values that occur, each with its number of occurrences |
| Aggregation.GroupCounts | app/src/main/java/dog/ctf/contacts/ui/departments/DepartmentsViewModel.kt:36-48 | one entry per distinct value in ascending order, each counting that value's occurrences, never zero |
| Aggregation.GroupsSortedAndComplete | app/src/main/java/dog/ctf/contacts/ui/departments/DepartmentsViewModel.kt:36-48 | group names are strictly ascending and are exactly the values present in the list |
| Aggregation.GroupCountIsExact | app/src/main/java/dog/ctf/contacts/ui/departments/DepartmentsViewModel.kt:40-43 | a group's count is the number of employees whose field equals its name exactly |
| Aggregation.CountAtMostLookup | app/src/main/java/dog/ctf/contacts/ui/departments/DepartmentsViewModel.kt:36-66 | a group's count never exceeds the length of the list its detail lookup returns, since that lookup matches by case-insensitive containment |
| Aggregation.GroupCountsSum | app/src/main/java/dog/ctf/contacts/ui/departments/DepartmentsViewModel.kt:36-48 | the counts add up to the number of employees |
| Aggregation.GroupExample | app/src/main/java/dog/ctf/contacts/ui/positions/PositionsViewModel.kt:36-48 | a concrete list A, A, B gives the groups (A, 2), (B, 1) |
| ViewModels.Load | app/src/main/java/dog/ctf/contacts/ui/home/HomeViewModel.kt:54-70 | every screen's load: success publishes the view of the merged list and clears the error; false publishes the screen's failure text; a parse exception publishes "发生错误: " and the message; a failure publishes nothing new |
| ViewModels.LoadEmployees | app/src/main/java/dog/ctf/contacts/ui/home/HomeViewModel.kt:54-70 | the home screen publishes the merged list on success and the load error text otherwise |
| ViewModels.LoadEmployeesTwice | app/src/main/java/dog/ctf/contacts/ui/home/HomeViewModel.kt:54-70 | loading the home screen twice is the same as loading it once |
| ViewModels.SearchEmployees | app/src/main/java/dog/ctf/contacts/ui/home/HomeViewModel.kt:75-90 | the published list is the whole list for an empty query, else exactly the name-or-department matches in order, each as often as it occurs; store and error are untouched |
| ViewModels.UpdateEmployeeList | app/src/main/java/dog/ctf/contacts/ui/home/HomeViewModel.kt:41-49 | the new list is both stored and published; a successful write survives a restart |
| ViewModels.MergeImported | app/src/main/java/dog/ctf/contacts/ui/home/HomeViewModel.kt:106-117 | the current list is kept as a prefix, followed in import order by exactly the imported contacts whose name is not already present, each as often as it was imported |
| ViewModels.MergeImportedIdempotent | app/src/main/java/dog/ctf/contacts/ui/home/HomeViewModel.kt:106-117 | importing the same contacts a second time adds nothing |
| ViewModels.ImportedDuplicatesKept | app/src/main/java/dog/ctf/contacts/ui/home/HomeViewModel.kt:112-113 | two imported contacts sharing a new name are both added, because the name filter only looks at the old list |
| ViewModels.ImportLocalContacts | app/src/main/java/dog/ctf/contacts/ui/home/HomeViewModel.kt:96-133 | an empty import changes nothing and reports 0; otherwise the merged list is saved and published, the error cleared, and the number of added records reported |
| ViewModels.TestContactNamesDistinct | app/src/main/java/dog/ctf/contacts/MainActivity.kt:160-169 | test contacts made at different instants have different names |
| ViewModels.ImportContactsDirectly | app/src/main/java/dog/ctf/contacts/MainActivity.kt:148-197 | the activity's import appends the test contact, merges by name, and updates only when something was added; a test contact with a new name is always added |
| ViewModels.ImportPathsAgree | app/src/main/java/dog/ctf/contacts/MainActivity.kt:173-197 | the activity's import produces the same list and count as the view model's import of the same contacts plus the test contact |
| ViewModels.LoadDepartments | app/src/main/java/dog/ctf/contacts/ui/departments/DepartmentsViewModel.kt:30-60 | the store becomes the seed load's store; success publishes the department groups of that merged list; failures publish the department error text or the exception text |
| ViewModels.LoadPositions | app/src/main/java/dog/ctf/contacts/ui/positions/PositionsViewModel.kt:30-60 | the same for positions, with its own error text |
| ViewModels.LoadedDepartments | app/src/main/java/dog/ctf/contacts/ui/departments/DepartmentsViewModel.kt:36-50 | after a successful load the published groups are sorted, add up to the staff count, and never exceed their detail lists |
| ViewModels.LoadedPositions | app/src/main/java/dog/ctf/contacts/ui/positions/PositionsViewModel.kt:36-50 | the same for positions |
| ViewModels.GetEmployeesByDepartment | app/src/main/java/dog/ctf/contacts/ui/departments/DepartmentsViewModel.kt:65-66 | the department lookup is a case-insensitive containment search, in list order, each match as often as it occurs |
| ViewModels.GetEmployeesByPosition | app/src/main/java/dog/ctf/contacts/ui/positions/PositionsViewModel.kt:65-66 | the position lookup is a case-insensitive containment search, in list order, each match as often as it occurs |
| ViewModels.LoadEmployeesBy | app/src/main/java/dog/ctf/contacts/ui/departmentdetail/DepartmentDetailViewModel.kt:30-45 | the store becomes the seed load's store; a detail screen publishes its group's members of that merged list after a successful load and the error text otherwise |
| ViewModels.SearchEmployeesIn | app/src/main/java/dog/ctf/contacts/ui/departmentdetail/DepartmentDetailViewModel.kt:50-66 | the in-group search narrows the group's members by name, keeping order and each match as often as it occurs; an empty query shows the whole group |
| ViewModels.SearchInGroupIsIntersection | app/src/main/java/dog/ctf/contacts/ui/positiondetail/PositionDetailViewModel.kt:50-66 | an in-group search finds exactly the employees in the group whose name matches |
| ViewModels.ArgumentOrEmpty | app/src/main/java/dog/ctf/contacts/ui/departmentdetail/DepartmentDetailFragment.kt:31-33 | a missing argument reads as the empty string |
| ViewModels.DepartmentArgumentRoundTrip | app/src/main/java/dog/ctf/contacts/ui/departments/DepartmentsFragment.kt:96-100 | the department name written under "departmentName" is the one the detail screen reads |
| ViewModels.PositionArgumentLost | app/src/main/java/dog/ctf/contacts/ui/positions/PositionsFragment.kt:89-96 | as written, the detail screen reads the empty name and so lists every employee whatever position was tapped |
| ViewModels.PositionArgumentRoundTrip | app/src/main/java/dog/ctf/contacts/ui/positiondetail/PositionDetailFragment.kt:31-33 | with one key on both sides the tapped position reaches the detail screen, which lists that position's staff |
| ContactImport.Entry | app/src/main/java/dog/ctf/contacts/utils/ContactsImporter.kt:127-145 | a phone row yields a number exactly when the number is present and not blank and its type is readable; an unreadable type counts as "other" for the importer and drops the row for the activity |
| ContactImport.Entries | app/src/main/java/dog/ctf/contacts/utils/ContactsImporter.kt:125-167 | the kept numbers are never blank and never more than the rows, and an entry is kept exactly when some phone row yields it, so rows with a missing column or an unreadable number are skipped without ending the loop |
| ContactImport.EntriesSingle | app/src/main/java/dog/ctf/contacts/utils/ContactsImporter.kt:125-167 | one phone row contributes its entry, or nothing when it is skipped |
| ContactImport.Place | app/src/main/java/dog/ctf/contacts/utils/ContactsImporter.kt:148-163 | a mobile number takes the mobile slot, a work number the office slot, any other the first empty slot or none |
| ContactImport.LastOfTypeIsLast | app/src/main/java/dog/ctf/contacts/utils/ContactsImporter.kt:147-163 | the last entry of a type is found exactly when one exists, and no later entry has that type |
| ContactImport.FillSlotsFacts | app/src/main/java/dog/ctf/contacts/utils/ContactsImporter.kt:147-163 | a slot is filled iff some number was kept, and the last mobile and the last work number win their slots |
| ContactImport.MobileEmptyIffAllWork | app/src/main/java/dog/ctf/contacts/utils/ContactsImporter.kt:147-163 | with no mobile number, the mobile slot is empty exactly when every number is a work number |
| ContactImport.OtherFillsMobile | app/src/main/java/dog/ctf/contacts/utils/ContactsImporter.kt:147-163 | with no mobile number, the mobile slot holds the first number that is not a work number |
| ContactImport.OfficeEmptyIffLaterMobile | app/src/main/java/dog/ctf/contacts/utils/ContactsImporter.kt:147-163 | with no work number, the office slot is empty exactly when every number after the first is a mobile number |
| ContactImport.OtherFillsOffice | app/src/main/java/dog/ctf/contacts/utils/ContactsImporter.kt:147-163 | with no work number, the office slot holds the first number after the first entry that is not a mobile number |
| ContactImport.FillSlotsPlacement | app/src/main/java/dog/ctf/contacts/utils/ContactsImporter.kt:147-163 | the whole placement: last mobile and last work win their slots, other types fill the mobile slot first and then the office slot |
| ContactImport.OthersPlacedInOrder | app/src/main/java/dog/ctf/contacts/utils/ContactsImporter.kt:156-161 | two other-typed numbers go to the mobile and then the office slot, never swapped |
| ContactImport.OtherDisplacedByMobile | app/src/main/java/dog/ctf/contacts/utils/ContactsImporter.kt:148-161 | an "other" number placed first is overwritten by a later mobile number |
| ContactImport.ContactRecord | app/src/main/java/dog/ctf/contacts/utils/ContactsImporter.kt:170-179 | a contact becomes a record, with the imported department and unknown position, exactly when it has a phone |
| ContactImport.GetPhoneNumbers | app/src/main/java/dog/ctf/contacts/utils/ContactsImporter.kt:104-191 | a record comes back exactly when the phone cursor exists and keeps some number; it carries the contact's name, the last mobile number as mobile phone, the last work number as office phone; without a mobile number the first number that is not a work number is the mobile phone, and without a work number the first later number that is not a mobile number is the office phone, each empty when there is none; every non-empty phone field is one of the kept numbers |
| ContactImport.ImportContact | app/src/main/java/dog/ctf/contacts/utils/ContactsImporter.kt:47-83 | a contact row is imported exactly when its columns exist, the id is present, `hasPhone` parses to a positive count, and some phone is kept; a NULL name becomes "未知姓名"; its phone fields are placed from the contact's kept numbers as GetPhoneNumbers states (last mobile and last work win; other types fill the mobile slot first, then the office slot) |
| ContactImport.ImportContacts | app/src/main/java/dog/ctf/contacts/utils/ContactsImporter.kt:22-99 | no cursor gives no records; otherwise at most one record per row, each with a phone; every record comes from some row and every row the importer accepts contributes its record |
| ContactImport.ImportContactsSingle | app/src/main/java/dog/ctf/contacts/utils/ContactsImporter.kt:73-80 | a single contact row gives its record, or nothing |
| ContactImport.ImportContactsConcat | app/src/main/java/dog/ctf/contacts/utils/ContactsImporter.kt:46-85 | rows are processed independently and in cursor order |
| ContactImport.ReadLocalContact | app/src/main/java/dog/ctf/contacts/MainActivity.kt:224-374 | the activity's reader keeps a row exactly when the id and name can be read, `hasPhone` parses to a positive count and some phone survives; its phone fields are placed from the numbers that survive by the same rule (last mobile and last work win; other types fill the mobile slot first, then the office slot) |
| ContactImport.ReadLocalContacts | app/src/main/java/dog/ctf/contacts/MainActivity.kt:224-374 | no cursor gives no records; otherwise at most one record per row, each with a phone; every record comes from some row and every accepted row contributes its record |
| ContactImport.ReadLocalContactsConcat | app/src/main/java/dog/ctf/contacts/MainActivity.kt:224-374 | the activity's reader treats rows independently and keeps cursor order |
| ContactImport.ReadLocalContactsSingle | app/src/main/java/dog/ctf/contacts/MainActivity.kt:224-374 | a single contact row gives its record, or nothing |
| ContactImport.ReadersAgree | app/src/main/java/dog/ctf/contacts/MainActivity.kt:224-374 | on rows whose cells all read cleanly, the activity's reader and the importer produce the same records |
| ContactImport.ReadersDifferOnUnreadableType | app/src/main/java/dog/ctf/contacts/utils/ContactsImporter.kt:140-145 | a phone whose type cannot be read is imported by the importer and dropped by the activity |
| ContactExport.ExportOperations | app/src/main/java/dog/ctf/contacts/utils/ContactsExporter.kt:27-73 | the batch is one raw contact, its name and organisation rows, then a mobile row and a work row for each non-empty phone, all referring back to the raw contact |
| ContactExport.ExportOperationsRoundTrip | app/src/main/java/dog/ctf/contacts/utils/ContactsExporter.kt:27-73 | the batch holds the whole employee: reading its rows back gives the same employee |
| ContactExport.ExportThenImport | app/src/main/java/dog/ctf/contacts/utils/ContactsExporter.kt:54-73 | reading the exported phone rows with the importer gives back the name and both numbers, in the imported department with unknown position |
| ContactExport.ExportEmployeeToContacts | app/src/main/java/dog/ctf/contacts/utils/ContactsExporter.kt:23-84 | the result is the batch's success, and only a successful batch adds the contact |
| ContactExport.CountName | app/src/main/java/dog/ctf/contacts/utils/ContactsExporter.kt:93-101 | the name query matches something exactly when the name is in the book |
| ContactExport.IsContactExists | app/src/main/java/dog/ctf/contacts/utils/ContactsExporter.kt:91-108 | a contact exists exactly when the cursor is non-null and counts at least one row |
| ContactExport.ContactExistsIffInBook | app/src/main/java/dog/ctf/contacts/utils/ContactsExporter.kt:91-108 | with a working cursor the duplicate check answers name membership in the book |
| ContactExport.SucceededMembers | app/src/main/java/dog/ctf/contacts/ui/home/HomeFragment.kt:264-281 | the records whose batch succeeds are exactly the selected ones with a successful batch |
| ContactExport.SucceededCount | app/src/main/java/dog/ctf/contacts/ui/home/HomeFragment.kt:264-281 | every selected record either has a successful batch or counts as a batch failure |
| ContactExport.ExportSelected | app/src/main/java/dog/ctf/contacts/ui/home/HomeFragment.kt:251-296 | success and failure counts add up to the selection; the exported employees are a sub-list of those whose batch succeeds, every failed batch is counted as a failure, a failure does not stop the loop (every employee whose batch succeeds has its name in the final book); the exported names are appended to the book, no name is exported twice, and with every batch succeeding every selected name ends up in the book |
| Selection.UpdateEmployees | app/src/main/java/dog/ctf/contacts/adapter/EmployeeAdapter.kt:34-38 | new rows replace the old and nothing stays highlighted |
| Selection.Toggle | app/src/main/java/dog/ctf/contacts/adapter/EmployeeAdapter.kt:50-57 | the tapped employee's highlight flips and no other employee's changes |
| Selection.SelectAll | app/src/main/java/dog/ctf/contacts/adapter/EmployeeAdapter.kt:62-66 | exactly the shown rows are highlighted |
| Selection.ClearSelection | app/src/main/java/dog/ctf/contacts/adapter/EmployeeAdapter.kt:71-74 | nothing is highlighted and the rows stay |
| Selection.UpdateThenRead | app/src/main/java/dog/ctf/contacts/adapter/EmployeeAdapter.kt:34-45 | after an update the adapter reports exactly the new rows, and select-all highlights exactly them |
| Selection.ToggleTwice | app/src/main/java/dog/ctf/contacts/adapter/EmployeeAdapter.kt:50-57 | tapping the same row twice restores the highlight |
| Selection.SelectAllIsIdempotent | app/src/main/java/dog/ctf/contacts/adapter/EmployeeAdapter.kt:62-74 | select-all twice is select-all once, and clearing forgets it |
| Selection.ToggleSelection | app/src/main/java/dog/ctf/contacts/ui/home/HomeFragment.kt:189-198 | the export list gains the employee when absent and loses one copy when present, while the adapter toggles it |
| Selection.SelectAllEmployees | app/src/main/java/dog/ctf/contacts/ui/home/HomeFragment.kt:203-209 | the export list becomes the adapter's rows and all of them are highlighted |
| Selection.StartSelectionMode | app/src/main/java/dog/ctf/contacts/ui/home/HomeFragment.kt:132-148 | opening the action mode keeps the list and the highlight |
| Selection.EndSelectionMode | app/src/main/java/dog/ctf/contacts/ui/home/HomeFragment.kt:176-182 | closing the action mode empties the export list and the highlight |
| Selection.ShowEmployees | app/src/main/java/dog/ctf/contacts/ui/home/HomeFragment.kt:332-333 | the observer replaces the adapter's rows and highlight, and leaves the export list |
| Selection.DialNumber | app/src/main/java/dog/ctf/contacts/ui/home/HomeFragment.kt:301-307 | the number dialled is the mobile number when there is one, otherwise the office number; it is empty only when both are |
| Selection.Click | app/src/main/java/dog/ctf/contacts/ui/home/HomeFragment.kt:102-110 | inside the action mode a tap toggles the row, outside it dials the employee |
| Selection.LongClick | app/src/main/java/dog/ctf/contacts/ui/home/HomeFragment.kt:111-120 | the long-press callback: outside the mode it opens the mode with the row selected and consumes the event; inside it does nothing |
| Selection.LongPressIgnored | app/src/main/java/dog/ctf/contacts/adapter/EmployeeAdapter.kt:88-96 | as wired, a long press outside the action mode leaves it closed and the highlight unchanged, where the fragment's callback would open it with the row selected |
| Selection.LongClickAfterEnd | app/src/main/java/dog/ctf/contacts/ui/home/HomeFragment.kt:111-120 | with the callback wired, a long press on a closed mode opens it with exactly the pressed employee in the export list and highlighted, the two in agreement |
| Selection.ExportRequest | app/src/main/java/dog/ctf/contacts/ui/home/HomeFragment.kt:156-166 | the export action refuses exactly an empty export list and otherwise exports that list |
| Selection.SelectionTitle | app/src/main/java/dog/ctf/contacts/ui/home/HomeFragment.kt:214-216 | the title is "已选择 ", the size of the export list in decimal without leading zeros, then " 项" |
| Selection.ToggleKeepsSync | app/src/main/java/dog/ctf/contacts/ui/home/HomeFragment.kt:189-198 | when the list and the highlight agree, a toggle keeps them in agreement |
| Selection.SelectAllSync | app/src/main/java/dog/ctf/contacts/ui/home/HomeFragment.kt:203-209 | select-all leaves them in agreement exactly when no row is repeated |
| Selection.EndKeepsSync | app/src/main/java/dog/ctf/contacts/ui/home/HomeFragment.kt:176-182 | closing the mode always leaves them in agreement |
| Selection.ShowEmployeesBreaksSync | app/src/main/java/dog/ctf/contacts/ui/home/HomeFragment.kt:332-333 | new rows keep them in agreement exactly when nothing was selected |
| Selection.ExportMatchesHighlight | app/src/main/java/dog/ctf/contacts/ui/home/HomeFragment.kt:251-255 | while in agreement the exported employees are exactly the highlighted ones and the title counts them |
| Selection.RepeatedRowStaysExported | app/src/main/java/dog/ctf/contacts/ui/home/HomeFragment.kt:189-209 | with a repeated row, select-all then one tap leaves the employee exported but no longer highlighted |
| Selection.ImportedIsDialable | app/src/main/java/dog/ctf/contacts/ui/home/HomeFragment.kt:301-307 | every imported contact has a number to dial |
| Theme.FontSizeOf | app/src/main/java/dog/ctf/contacts/style/ThemeStyle.kt:118-129 | "small", "large" and "extra_large" pick their tables; every other name means medium |
| Theme.ApplyFontSize | app/src/main/java/dog/ctf/contacts/style/ThemeStyle.kt:118-129 | the sizes are replaced by the chosen table, which defines all five text roles; colours stay |
| Theme.GetTextSize | app/src/main/java/dog/ctf/contacts/style/ThemeStyle.kt:136-138 | a defined role gets its stored size, any other role "16sp" |
| Theme.ApplyTheme | app/src/main/java/dog/ctf/contacts/style/ThemeStyle.kt:107-112 | a known theme name replaces the colours, an unknown one changes nothing; the current colours are returned and sizes stay |
| Theme.InitialIsMediumLight | app/src/main/java/dog/ctf/contacts/style/ThemeStyle.kt:35-80 | the object starts with the light colours and the medium size table |
| Theme.ThemesDefineSameKeys | app/src/main/java/dog/ctf/contacts/style/ThemeStyle.kt:9-32 | both themes define the same nine colour keys |
| Theme.ApplyFontSizeIdempotent | app/src/main/java/dog/ctf/contacts/style/ThemeStyle.kt:118-129 | setting a font size twice is setting it once, and only the last setting counts |
| Theme.TextSizeAfterApply | app/src/main/java/dog/ctf/contacts/style/ThemeStyle.kt:118-138 | after any font-size setting each role reads its table's size and any other role the medium body size |
| Theme.ApplyThemeIdempotent | app/src/main/java/dog/ctf/contacts/style/ThemeStyle.kt:107-112 | setting a theme twice is setting it once |
| Theme.SizeAt | app/src/main/java/dog/ctf/contacts/style/ThemeStyle.kt:44-77 | each size text in the four tables reads as its listed number of sp |
| Theme.SizesShrinkByRole | app/src/main/java/dog/ctf/contacts/style/ThemeStyle.kt:44-77 | within every table the sizes shrink from header through title, subtitle and body to caption |
| Theme.SizesGrowByTable | app/src/main/java/dog/ctf/contacts/style/ThemeStyle.kt:44-77 | for every role the sizes grow from small to medium to large to extra large |

## Left out

- JSON text: reading and writing the JSON text is platform work. The model
  starts from parsed elements, and a write is all-or-nothing.
- Threads, `LiveData` delivery and the `isLoading` flag: values are
  modelled as the last one published, and `isLoading` only brackets each
  call.
- The `catch` blocks in `HomeViewModel.searchEmployees`, the outer
  `catch` of `importLocalContacts` (HomeViewModel.kt:134-139), and the
  `catch` blocks setting "搜索错误: " in the two detail screens' searches
  (DepartmentDetailViewModel.kt:61-62, PositionDetailViewModel.kt:61-62):
  the modelled operations cannot throw, so these paths are unreachable in
  the model.
- Unicode: case folding and `isWhitespace` use ASCII and the explicit
  whitespace set. `toInt` accepts ASCII digits only. String order compares
  characters, not UTF-16 units, which differs only outside the Basic
  Multilingual Plane.
- `getInt` on a NULL phone-type cell: its result depends on the cursor, so
  the model takes the value read (or an unreadable type) as input.
- `isContactExists` throwing: the query has no `try`, and neither has the
  export thread's loop (HomeFragment.kt:263-292). An exception there ends
  the export thread: the contacts already written stay, no result is
  shown, and the action mode stays open. The model does not include
  this path; a null cursor is modelled through the `queryNull` input.
- `getSelectedEmployees` order: the adapter's selection is a set, so only
  membership is modelled. The export reads the fragment's list, not this
  set.
- Runtime permissions, toasts, dialogs, intents, navigation graph,
  `TextSizeHelper`, the settings screen and view binding: UI glue with no
  logic beyond the calls already modelled.
- `startSupportActionMode` returning null, and the export button pressed
  while the mode is already open: both depend on the platform's action-mode
  implementation.
- `ThemeStyle`'s spacing, list-item and search-bar constants: no operation
  reads them.
- Selection.ItemCount and the adapter's `getEmployees` getter: plain field
  reads, with no contract beyond the value itself.
- RecordStore.SearchByName, RecordStore.SearchByDepartment,
  RecordStore.SearchByPosition, RecordStore.GetAllDepartments and
  RecordStore.GetAllPositions: each is one call of SearchByField or
  DistinctSorted, and their contracts are stated there.

## Findings

| source | as written | input that shows it | evidently intended | confidence | as-written member | corrected member |
|---|---|---|---|---|---|---|
| app/src/main/java/dog/ctf/contacts/ui/positions/PositionsFragment.kt:92 | the position list passes the tapped name under the key "position_name", while PositionDetailFragment.kt:32 reads "positionName" | tapping any position, e.g. "医生": the detail screen reads "" and its containment search matches every employee | the same key on both sides, as the department screens do with "departmentName" | not executed | ViewModels.PositionArgumentLost | ViewModels.PositionArgumentRoundTrip |
| app/src/main/java/dog/ctf/contacts/adapter/EmployeeAdapter.kt:88-96 | `onBindViewHolder` registers only a tap listener; the `onEmployeeLongClick` callback the adapter receives (EmployeeAdapter.kt:25) is never invoked | long-pressing any row on the home screen with the action mode closed: nothing happens, while HomeFragment.kt:111-120 would open the mode with that row selected | the adapter registers a long-click listener that calls the callback, as the home screen's comment and handler expect | not executed | Selection.LongPressIgnored | Selection.LongClick |

=== FILE: aggregation.dfy ===
/** The grouping in `DepartmentsViewModel.loadDepartments` and
    `PositionsViewModel.loadPositions`: count the employees per exact field
    value in a hash map, turn the entries into `Department` / `Position`
    summaries and sort them by name. */
module Aggregation {
  import opened Seqs
  import opened Text
  import opened Model
  import opened Ordering
  import opened RecordStore

  /** The `forEach` that fills the map: `map[v] = map.getOrDefault(v, 0) + 1`. */
  function CountMap(values: seq<string>): (m: map<string, nat>)
    ensures m.Keys == Elems(values)
    ensures forall k :: k in m ==> m[k] == multiset(values)[k]
    decreases |values|
  {
    if values == [] then map[]
    else
      var init := values[..|values| - 1];
      var v := values[|values| - 1];
      var m := CountMap(init);
      assert values == init + [v];
      m[v := (if v in m then m[v] else 0) + 1]
  }

  /** The summaries, one per distinct value of field `f`, sorted by name.
      The hash map's own key order does not matter: the keys are distinct and
      the sort is total. */
  function GroupCounts(list: seq<Employee>, f: Field): (r: seq<Group>)
    ensures |r| == |DistinctSorted(list, f)|
    ensures forall i :: 0 <= i < |r| ==> r[i].name == DistinctSorted(list, f)[i]
    ensures forall i :: 0 <= i < |r| ==>
      r[i].employeeCount == multiset(FieldValues(list, f))[r[i].name] >= 1
  {
    var values := FieldValues(list, f);
    var counts := CountMap(values);
    var names := DistinctSorted(list, f);
    assert forall i :: 0 <= i < |names| ==> names[i] in Elems(values) by {
      forall i | 0 <= i < |names| ensures names[i] in Elems(values) {
        assert names[i] in names;
        var j :| 0 <= j < |list| && FieldOf(list[j], f) == names[i];
        assert values[j] == names[i];
      }
    }
    seq(|names|, i requires 0 <= i < |names| => Group(names[i], counts[names[i]]))
  }

  function GroupNames(groups: seq<Group>): seq<string>
  {
    Map(groups, (g: Group) => g.name)
  }

  /** The entries are strictly ascending by name, so there is exactly one per
      value, and the values are exactly those present in the list. */
  lemma GroupsSortedAndComplete(list: seq<Employee>, f: Field)
    ensures StrictlyAscending(GroupNames(GroupCounts(list, f)))
    ensures forall v :: v in GroupNames(GroupCounts(list, f)) <==>
      exists i :: 0 <= i < |list| && FieldOf(list[i], f) == v
  {
    assert GroupNames(GroupCounts(list, f)) == DistinctSorted(list, f);
  }

  /** The count of a value in the field values is the number of employees
      whose field equals it exactly. */
  lemma {:induction false} CountIsExactMatches(list: seq<Employee>, f: Field, v: string)
    ensures multiset(FieldValues(list, f))[v] == |Filter(list, FieldEquals(f, v))|
    decreases |list|
  {
    if list != [] {
      CountIsExactMatches(list[1..], f, v);
      assert list == [list[0]] + list[1..];
      FieldValuesConcat([list[0]], list[1..], f);
    }
  }

  /** Each entry counts the employees whose field is exactly its name. */
  lemma GroupCountIsExact(list: seq<Employee>, f: Field, i: nat)
    requires i < |GroupCounts(list, f)|
    ensures GroupCounts(list, f)[i].employeeCount
      == |Filter(list, FieldEquals(f, GroupCounts(list, f)[i].name))|
  {
    CountIsExactMatches(list, f, GroupCounts(list, f)[i].name);
  }

  /** The detail lookup is a substring search, which finds at least the exact
      matches: an entry's count never exceeds what its detail list shows. */
  lemma CountAtMostLookup(list: seq<Employee>, f: Field, i: nat)
    requires i < |GroupCounts(list, f)|
    ensures GroupCounts(list, f)[i].employeeCount
      <= |SearchByField(list, f, GroupCounts(list, f)[i].name)|
  {
    var name := GroupCounts(list, f)[i].name;
    GroupCountIsExact(list, f, i);
    if name != [] {
      forall e | e in list && FieldEquals(f, name)(e) ensures FieldContains(f, name)(e) {
        ContainsItself(name);
      }
      FilterMonotone(list, FieldEquals(f, name), FieldContains(f, name));
    }
  }

  function SumCounts(groups: seq<Group>): nat
  {
    if groups == [] then 0 else groups[0].employeeCount + SumCounts(groups[1..])
  }

  /** The sum of the multiplicities in `m` of the keys `ks`. */
  function SumOver(ks: seq<string>, m: multiset<string>): nat
  {
    if ks == [] then 0 else m[ks[0]] + SumOver(ks[1..], m)
  }

  /** The counts add up to the number of employees. */
  lemma GroupCountsSum(list: seq<Employee>, f: Field)
    ensures SumCounts(GroupCounts(list, f)) == |list|
  {
    var gs := GroupCounts(list, f);
    var names := DistinctSorted(list, f);
    var values := FieldValues(list, f);
    SumCountsOver(gs, names, multiset(values));
    forall v | v in Elems(values) ensures v in Elems(names) {
      var j :| 0 <= j < |values| && values[j] == v;
      assert FieldOf(list[j], f) == v;
    }
    SumOverCovering(names, values);
  }

  lemma {:induction false} SumCountsOver(gs: seq<Group>, names: seq<string>, m: multiset<string>)
    requires |gs| == |names|
    requires forall i :: 0 <= i < |gs| ==> gs[i].employeeCount == m[names[i]]
    ensures SumCounts(gs) == SumOver(names, m)
    decreases |gs|
  {
    if gs != [] {
      SumCountsOver(gs[1..], names[1..], m);
    }
  }

  lemma {:induction false} SumOverEmpty(ks: seq<string>)
    ensures SumOver(ks, multiset{}) == 0
    decreases |ks|
  {
    if ks != [] {
      SumOverEmpty(ks[1..]);
    }
  }

  lemma {:induction false} SumOverOther(ks: seq<string>, m: multiset<string>, x: string)
    requires x !in ks
    ensures SumOver(ks, m + multiset{x}) == SumOver(ks, m)
    decreases |ks|
  {
    if ks != [] {
      SumOverOther(ks[1..], m, x);
    }
  }

  lemma {:induction false} SumOverAddOne(ks: seq<string>, m: multiset<string>, x: string)
    requires NoDuplicates(ks) && x in ks
    ensures SumOver(ks, m + multiset{x}) == SumOver(ks, m) + 1
    decreases |ks|
  {
    if ks[0] == x {
      forall j | 0 <= j < |ks[1..]| ensures ks[1..][j] != x {
        assert ks[1..][j] == ks[j + 1];
      }
      SumOverOther(ks[1..], m, x);
    } else {
      assert x in ks[1..] by {
        var j :| 0 <= j < |ks| && ks[j] == x;
        assert ks[1..][j - 1] == x;
      }
      SumOverAddOne(ks[1..], m, x);
    }
  }

  /** Summing the multiplicities over duplicate-free keys that cover every
      value gives the number of values. */
  lemma {:induction false} SumOverCovering(ks: seq<string>, values: seq<string>)
    requires NoDuplicates(ks)
    requires Elems(values) <= Elems(ks)
    ensures SumOver(ks, multiset(values)) == |values|
    decreases |values|
  {
    if values == [] {
      SumOverEmpty(ks);
    } else {
      var init := values[..|values| - 1];
      var x := values[|values| - 1];
      assert values == init + [x];
      assert Elems(init) <= Elems(values);
      SumOverCovering(ks, init);
      assert x in Elems(ks);
      SumOverAddOne(ks, multiset(init), x);
    }
  }

  /** Three employees, two in department "A" and one in "B". */
  function SampleStaff(): seq<Employee>
  {
    [Employee("e1", "A", "p", "", ""),
     Employee("e2", "A", "p", "", ""),
     Employee("e3", "B", "p", "", "")]
  }

  lemma SampleValues()
    ensures FieldValues(SampleStaff(), DepartmentField) == ["A", "A", "B"]
  {
  }

  lemma SampleDepartments()
    ensures FieldValues(SampleStaff(), DepartmentField) == ["A", "A", "B"]
    ensures DistinctSorted(SampleStaff(), DepartmentField) == ["A", "B"]
  {
    var values := FieldValues(SampleStaff(), DepartmentField);
    SampleValues();
    var names := DistinctSorted(SampleStaff(), DepartmentField);
    assert names == SortDistinct(values);
    assert Elems(values) == {"A", "B"} by {
      assert values[0] == "A" && values[2] == "B";
    }
    assert Less("A", "B");
    AscendingUnique(names, ["A", "B"]);
  }

  lemma SampleCounts()
    ensures multiset(FieldValues(SampleStaff(), DepartmentField))["A"] == 2
    ensures multiset(FieldValues(SampleStaff(), DepartmentField))["B"] == 1
  {
    SampleValues();
    var a, b := "A", "B";
    assert a != b by { assert a[0] != b[0]; }
    assert multiset([a, a, b]) == multiset{a, a, b};
  }

  /** Departments "A", "A", "B" group as A with 2 and B with 1. */
  lemma GroupExample()
    ensures GroupCounts(SampleStaff(), DepartmentField) == [Group("A", 2), Group("B", 1)]
  {
    SampleDepartments();
    SampleCounts();
  }
}

=== FILE: employee.dfy ===
/** The directory's records: an employee with five string fields, and the
    derived per-department / per-position summary (both `Department` and
    `Position` in the app have the same shape, a name and a count). */
module Model {
  import opened Seqs
  import opened Text

  datatype Employee = Employee(
    name: string,
    department: string,
    position: string,
    officePhone: string,
    mobilePhone: string)

  /** `Department(name, employeeCount)` and `Position(name, employeeCount)`. */
  datatype Group = Group(name: string, employeeCount: nat)

  /** The three text fields the queries select on. */
  datatype Field = NameField | DepartmentField | PositionField

  function FieldOf(e: Employee, f: Field): string
  {
    match f
    case NameField => e.name
    case DepartmentField => e.department
    case PositionField => e.position
  }

  /** `list.map { it.<field> }`. */
  function FieldValues(list: seq<Employee>, f: Field): (r: seq<string>)
    ensures |r| == |list|
    ensures forall i :: 0 <= i < |list| ==> r[i] == FieldOf(list[i], f)
  {
    Map(list, (e: Employee) => FieldOf(e, f))
  }

  /** `list.map { it.name }`: the merge key used by every dedupe in the app. */
  function Names(list: seq<Employee>): (r: seq<string>)
    ensures |r| == |list|
    ensures forall i :: 0 <= i < |list| ==> r[i] == list[i].name
  {
    FieldValues(list, NameField)
  }

  /** `it.<field>.contains(query, ignoreCase = true)`. */
  function FieldContains(f: Field, query: string): Employee -> bool
  {
    (e: Employee) => ContainsIgnoreCase(FieldOf(e, f), query)
  }

  /** `it.<field> == value`. */
  function FieldEquals(f: Field, value: string): Employee -> bool
  {
    (e: Employee) => FieldOf(e, f) == value
  }

  /** `it.name !in names`. */
  function NameNotIn(names: seq<string>): Employee -> bool
  {
    (e: Employee) => e.name !in names
  }

  lemma FieldValuesConcat(a: seq<Employee>, b: seq<Employee>, f: Field)
    ensures FieldValues(a + b, f) == FieldValues(a, f) + FieldValues(b, f)
  {
  }
}

=== FILE: exporter.dfy ===
/** Writing employees into the device address book: the operation batch
    `ContactsExporter.exportEmployeeToContacts` builds, the duplicate check
    `isContactExists`, and the counting loop of
    `HomeFragment.exportSelectedContacts`.

    `applyBatch` is the platform: whether it succeeds is an input. The
    address book is modelled by the display names it holds, which is all
    `isContactExists` asks of it. */
module ContactExport {
  import opened Optional
  import opened Seqs
  import opened Text
  import opened Model
  import opened ContactImport

  /** The data rows the batch inserts. */
  datatype DataRow =
    | StructuredName(displayName: string)
    | Organization(company: string, title: string)
    | Phone(number: string, phoneType: int)

  /** `ContentProviderOperation.newInsert`: the raw contact (with null
      account type and name), or a data row whose raw contact id is a back
      reference to an earlier operation of the batch. */
  datatype Operation =
    | InsertRawContact(accountType: Option<string>, accountName: Option<string>)
    | InsertData(rawContactBackReference: nat, row: DataRow)

  /** The operations `exportEmployeeToContacts` hands to `applyBatch`. */
  function ExportOperations(e: Employee): (ops: seq<Operation>)
    ensures |ops| == 3 + (if e.mobilePhone != [] then 1 else 0) + (if e.officePhone != [] then 1 else 0)
    ensures ops[0] == InsertRawContact(None, None)
    ensures ops[1] == InsertData(0, StructuredName(e.name))
    ensures ops[2] == InsertData(0, Organization(e.department, e.position))
    ensures forall i :: 1 <= i < |ops| ==> ops[i].InsertData? && ops[i].rawContactBackReference == 0
    ensures e.mobilePhone != [] <==> InsertData(0, Phone(e.mobilePhone, TYPE_MOBILE)) in ops
    ensures e.officePhone != [] <==> InsertData(0, Phone(e.officePhone, TYPE_WORK)) in ops
    ensures e.mobilePhone != [] ==> ops[3] == InsertData(0, Phone(e.mobilePhone, TYPE_MOBILE))
    ensures e.officePhone != [] ==> ops[|ops| - 1] == InsertData(0, Phone(e.officePhone, TYPE_WORK))
  {
    Header(e) + PhoneOps(e.mobilePhone, TYPE_MOBILE) + PhoneOps(e.officePhone, TYPE_WORK)
  }

  /** The raw contact, its name and its organization. */
  function Header(e: Employee): seq<Operation>
  {
    [InsertRawContact(None, None),
     InsertData(0, StructuredName(e.name)),
     InsertData(0, Organization(e.department, e.position))]
  }

  /** `if (number.isNotEmpty())`: the phone insert, or nothing. */
  function PhoneOps(number: string, t: int): seq<Operation>
  {
    if number != [] then [InsertData(0, Phone(number, t))] else []
  }

  /** The number of the last phone row of type `t` in a batch, or "". */
  function PhoneOfType(ops: seq<Operation>, t: int): string
    decreases |ops|
  {
    if ops == [] then []
    else
      var last := ops[|ops| - 1];
      if last.InsertData? && last.row.Phone? && last.row.phoneType == t then last.row.number
      else PhoneOfType(ops[..|ops| - 1], t)
  }

  /** Reads an employee back from a batch built as above: name and
      organization from the second and third operations, phones by type. */
  function ContactOf(ops: seq<Operation>): (r: Option<Employee>)
    ensures r.Some? ==> |ops| >= 3 && ops[1].InsertData? && ops[2].InsertData?
  {
    if |ops| < 3 then None
    else
      match (ops[1], ops[2])
      case (InsertData(_, StructuredName(name)), InsertData(_, Organization(company, title))) =>
        Some(Employee(name, company, title, PhoneOfType(ops, TYPE_WORK), PhoneOfType(ops, TYPE_MOBILE)))
      case _ => None
  }

  lemma PhoneOfTypeAppend(ops: seq<Operation>, more: seq<Operation>, t: int)
    requires |more| <= 1
    ensures PhoneOfType(ops + more, t) ==
      if more != [] && more[0].InsertData? && more[0].row.Phone? && more[0].row.phoneType == t
      then more[0].row.number else PhoneOfType(ops, t)
  {
    if more == [] {
      assert ops + more == ops;
    } else {
      assert (ops + more)[..|ops|] == ops;
    }
  }

  lemma {:induction false} NoPhoneOfType(ops: seq<Operation>, t: int)
    requires forall i :: 0 <= i < |ops| ==> !(ops[i].InsertData? && ops[i].row.Phone?)
    ensures PhoneOfType(ops, t) == []
    decreases |ops|
  {
    if ops != [] {
      NoPhoneOfType(ops[..|ops| - 1], t);
    }
  }

  /** The first three operations write no phone. */
  lemma HeaderHasNoPhones(e: Employee)
    ensures PhoneOfType(Header(e), TYPE_MOBILE) == [] && PhoneOfType(Header(e), TYPE_WORK) == []
    ensures WrittenPhoneRows(Header(e)) == []
  {
    var h := Header(e);
    NoPhoneOfType(h, TYPE_MOBILE);
    NoPhoneOfType(h, TYPE_WORK);
    assert h[1..] == [h[1], h[2]] && [h[1], h[2]][1..] == [h[2]] && [h[2]][1..] == [];
    assert WrittenPhoneRows([h[2]]) == [];
    assert WrittenPhoneRows([h[1], h[2]]) == [];
  }

  /** The batch carries every field of the employee: reading it back gives
      the employee again. */
  lemma ExportOperationsRoundTrip(e: Employee)
    ensures ContactOf(ExportOperations(e)) == Some(e)
  {
    var header := Header(e);
    HeaderHasNoPhones(e);
    var mobile := PhoneOps(e.mobilePhone, TYPE_MOBILE);
    var work := PhoneOps(e.officePhone, TYPE_WORK);
    PhoneOfTypeAppend(header, mobile, TYPE_MOBILE);
    PhoneOfTypeAppend(header, mobile, TYPE_WORK);
    PhoneOfTypeAppend(header + mobile, work, TYPE_MOBILE);
    PhoneOfTypeAppend(header + mobile, work, TYPE_WORK);
  }

  /** The phone rows a batch writes, as the importer's phone cursor returns them. */
  function WrittenPhoneRows(ops: seq<Operation>): (rows: seq<PhoneRow>)
    ensures |rows| <= |ops|
  {
    if ops == [] then []
    else
      var tail := WrittenPhoneRows(ops[1..]);
      if ops[0].InsertData? && ops[0].row.Phone? then
        [PhoneRow(Val(ops[0].row.number), TypeVal(ops[0].row.phoneType))] + tail
      else tail
  }

  lemma {:induction false} WrittenPhoneRowsConcat(a: seq<Operation>, b: seq<Operation>)
    ensures WrittenPhoneRows(a + b) == WrittenPhoneRows(a) + WrittenPhoneRows(b)
    decreases |a|
  {
    if a == [] {
      assert a + b == b;
    } else {
      assert (a + b)[0] == a[0] && (a + b)[1..] == a[1..] + b;
      WrittenPhoneRowsConcat(a[1..], b);
    }
  }

  /** The importer's entries for the rows one phone insert writes. */
  lemma PhoneOpsEntries(number: string, t: int)
    requires number == [] || !IsBlank(number)
    ensures Entries(WrittenPhoneRows(PhoneOps(number, t)), ReadAsOther)
      == if number != [] then [PhoneEntry(number, t)] else []
  {
    if number != [] {
      var rows := WrittenPhoneRows(PhoneOps(number, t));
      assert PhoneOps(number, t)[1..] == [];
      assert rows == [PhoneRow(Val(number), TypeVal(t))];
      assert rows[1..] == [];
    }
  }

  /** The importer's entries for an exported record: the mobile entry, then
      the work entry, each present when its number is. */
  lemma ExportedEntries(e: Employee)
    requires e.mobilePhone == [] || !IsBlank(e.mobilePhone)
    requires e.officePhone == [] || !IsBlank(e.officePhone)
    ensures Entries(WrittenPhoneRows(ExportOperations(e)), ReadAsOther)
      == (if e.mobilePhone != [] then [PhoneEntry(e.mobilePhone, TYPE_MOBILE)] else [])
       + (if e.officePhone != [] then [PhoneEntry(e.officePhone, TYPE_WORK)] else [])
  {
    var header := Header(e);
    var mobile := PhoneOps(e.mobilePhone, TYPE_MOBILE);
    var work := PhoneOps(e.officePhone, TYPE_WORK);
    WrittenPhoneRowsConcat(header + mobile, work);
    WrittenPhoneRowsConcat(header, mobile);
    HeaderHasNoPhones(e);
    assert WrittenPhoneRows(header) + WrittenPhoneRows(mobile) == WrittenPhoneRows(mobile);
    EntriesConcat(WrittenPhoneRows(mobile), WrittenPhoneRows(work), ReadAsOther);
    PhoneOpsEntries(e.mobilePhone, TYPE_MOBILE);
    PhoneOpsEntries(e.officePhone, TYPE_WORK);
  }

  /** Filling the slots from a mobile entry followed by a work entry puts
      each number back in its own slot. */
  lemma ExportedSlots(mobile: string, office: string)
    ensures FillSlots((if mobile != [] then [PhoneEntry(mobile, TYPE_MOBILE)] else [])
      + (if office != [] then [PhoneEntry(office, TYPE_WORK)] else [])) == Slots(mobile, office)
  {
    var mobileEntry := PhoneEntry(mobile, TYPE_MOBILE);
    var workEntry := PhoneEntry(office, TYPE_WORK);
    var es := (if mobile != [] then [mobileEntry] else []) + (if office != [] then [workEntry] else []);
    if mobile != [] && office != [] {
      assert es == [mobileEntry, workEntry];
      assert es[..1] == [mobileEntry] && es[..1][..0] == [];
      assert FillSlots([mobileEntry]) == Slots(mobile, []);
    } else if mobile != [] {
      assert es == [mobileEntry];
      assert es[..0] == [];
    } else if office != [] {
      assert es == [workEntry];
      assert es[..0] == [];
    } else {
      assert es == [];
    }
  }

  /** An exported record with a phone, read back by the importer, keeps its
      name and both numbers; department and position become the import
      placeholders. A phone that is non-empty but blank would be dropped, so
      each number is either empty or not blank. */
  lemma ExportThenImport(e: Employee)
    requires e.mobilePhone != [] || e.officePhone != []
    requires e.mobilePhone == [] || !IsBlank(e.mobilePhone)
    requires e.officePhone == [] || !IsBlank(e.officePhone)
    ensures GetPhoneNumbers(PhoneRows(WrittenPhoneRows(ExportOperations(e))), e.name)
      == Some(Employee(e.name, IMPORTED_DEPARTMENT, UNKNOWN_POSITION, e.officePhone, e.mobilePhone))
  {
    ExportedEntries(e);
    ExportedSlots(e.mobilePhone, e.officePhone);
  }

  /** `exportEmployeeToContacts`: true exactly when `applyBatch` returned;
      on success the address book gains the employee's display name. */
  function ExportEmployeeToContacts(book: seq<string>, e: Employee, batchOk: bool): (r: (bool, seq<string>))
    ensures r.0 == batchOk
    ensures r.1 == (if batchOk then book + [e.name] else book)
  {
    if batchOk then (true, book + [ExportOperations(e)[1].row.displayName])
    else (false, book)
  }

  /** How many address-book entries have exactly this display name: the
      count of the cursor `isContactExists` queries. */
  function CountName(book: seq<string>, name: string): (n: nat)
    ensures n > 0 <==> name in book
    ensures n <= |book|
  {
    if book == [] then 0
    else (if book[0] == name then 1 else 0) + CountName(book[1..], name)
  }

  /** `isContactExists`: the query's cursor, `None` when it is null. */
  function IsContactExists(cursorCount: Option<nat>): (r: bool)
    ensures r <==> cursorCount.Some? && cursorCount.value > 0
  {
    match cursorCount
    case None => false
    case Some(count) => count > 0
  }

  /** Over a real cursor the check answers whether the name is in the book. */
  lemma ContactExistsIffInBook(book: seq<string>, name: string)
    ensures IsContactExists(Some(CountName(book, name))) <==> name in book
  {
  }

  predicate AllCursors(queryNull: seq<bool>)
  {
    forall i :: 0 <= i < |queryNull| ==> !queryNull[i]
  }

  /** The exported records' names are new to the book and distinct. */
  predicate FreshNames(book: seq<string>, exported: seq<Employee>)
  {
    (forall e :: e in exported ==> e.name !in book) && NoDuplicates(Names(exported))
  }

  lemma NamesAppend(exported: seq<Employee>, e: Employee)
    ensures Names(exported + [e]) == Names(exported) + [e.name]
  {
  }

  /** Exporting a record whose name the current book lacks keeps the names fresh. */
  lemma FreshNamesStep(book: seq<string>, exported: seq<Employee>, e: Employee)
    requires FreshNames(book, exported)
    requires e.name !in book + Names(exported)
    ensures FreshNames(book, exported + [e])
  {
    NamesAppend(exported, e);
    NoDuplicatesConcat(Names(exported), [e.name]);
    forall x | x in exported + [e] ensures x.name !in book {
      if x != e {
        assert x in exported;
      }
    }
  }

  predicate AllBatchesOk(batchOk: seq<bool>)
  {
    forall i :: 0 <= i < |batchOk| ==> batchOk[i]
  }

  /** Every record of `records` has its name in the book. */
  predicate NamesIn(records: seq<Employee>, book: seq<string>)
  {
    forall e :: e in records ==> e.name in book
  }

  /** The selected records whose batch would succeed, in selection order. */
  function Succeeded(selected: seq<Employee>, batchOk: seq<bool>): (r: seq<Employee>)
    requires |batchOk| == |selected|
    ensures |r| <= |selected|
    ensures IsSubsequence(r, selected)
    decreases |selected|
  {
    if selected == [] then []
    else
      var n := |selected| - 1;
      var init := Succeeded(selected[..n], batchOk[..n]);
      assert selected == selected[..n] + [selected[n]];
      if batchOk[n] then
        SubsequenceAppendBoth(init, selected[..n], selected[n]);
        init + [selected[n]]
      else
        SubsequenceExtend(init, selected[..n], selected[n]);
        init
  }

  /** The number of selected records whose batch would fail. */
  function BatchFailures(batchOk: seq<bool>): (n: nat)
    ensures n <= |batchOk|
    ensures n == 0 <==> AllBatchesOk(batchOk)
    decreases |batchOk|
  {
    if batchOk == [] then 0
    else
      var k := |batchOk| - 1;
      assert forall i :: 0 <= i < k ==> batchOk[..k][i] == batchOk[i];
      BatchFailures(batchOk[..k]) + (if batchOk[k] then 0 else 1)
  }

  /** The records kept are exactly the selected ones whose batch succeeds. */
  lemma {:induction false} SucceededMembers(selected: seq<Employee>, batchOk: seq<bool>)
    requires |batchOk| == |selected|
    ensures forall i :: 0 <= i < |selected| && batchOk[i] ==> selected[i] in Succeeded(selected, batchOk)
    ensures forall e :: e in Succeeded(selected, batchOk) ==>
      exists i :: 0 <= i < |selected| && batchOk[i] && selected[i] == e
    decreases |selected|
  {
    if selected != [] {
      var n := |selected| - 1;
      SucceededMembers(selected[..n], batchOk[..n]);
      assert forall i :: 0 <= i < n ==> selected[..n][i] == selected[i] && batchOk[..n][i] == batchOk[i];
    }
  }

  /** Every record either succeeds or counts as a batch failure. */
  lemma {:induction false} SucceededCount(selected: seq<Employee>, batchOk: seq<bool>)
    requires |batchOk| == |selected|
    ensures |Succeeded(selected, batchOk)| + BatchFailures(batchOk) == |selected|
    decreases |selected|
  {
    if selected != [] {
      var n := |selected| - 1;
      SucceededCount(selected[..n], batchOk[..n]);
    }
  }

  /** One step of the export loop: the `i`-th record is exported only when its
      batch succeeds. */
  lemma SucceededStep(exported: seq<Employee>, selected: seq<Employee>, batchOk: seq<bool>, i: nat, done: bool)
    requires |batchOk| == |selected| && i < |selected|
    requires IsSubsequence(exported, Succeeded(selected[..i], batchOk[..i]))
    requires done ==> batchOk[i]
    ensures done ==> IsSubsequence(exported + [selected[i]], Succeeded(selected[..i + 1], batchOk[..i + 1]))
    ensures !done ==> IsSubsequence(exported, Succeeded(selected[..i + 1], batchOk[..i + 1]))
  {
    assert selected[..i + 1][..i] == selected[..i];
    assert batchOk[..i + 1][..i] == batchOk[..i];
    var prev := Succeeded(selected[..i], batchOk[..i]);
    if batchOk[i] {
      assert Succeeded(selected[..i + 1], batchOk[..i + 1]) == prev + [selected[i]];
      if done {
        SubsequenceAppendBoth(exported, prev, selected[i]);
      } else {
        SubsequenceExtend(exported, prev, selected[i]);
      }
    } else {
      assert Succeeded(selected[..i + 1], batchOk[..i + 1]) == prev;
    }
  }

  /** The records up to `i` whose batch succeeds keep their names in a book
      that only grew, once the `i`-th one's name is in it as well. */
  lemma BatchNamesStep(selected: seq<Employee>, batchOk: seq<bool>, i: nat, book: seq<string>, book': seq<string>)
    requires |batchOk| == |selected| && i < |selected|
    requires forall j :: 0 <= j < i && batchOk[j] ==> selected[j].name in book
    requires forall n :: n in book ==> n in book'
    requires batchOk[i] ==> selected[i].name in book'
    ensures forall j :: 0 <= j < i + 1 && batchOk[j] ==> selected[j].name in book'
  {
  }

  /** What the finished loop's counts and lists add up to: the exported
      records are selected ones, at most as many as the successful batches,
      and with every batch succeeding every selected name is in the book. */
  lemma ExportSelectedOutcome(selected: seq<Employee>, batchOk: seq<bool>, success: nat, fail: nat,
                              exported: seq<Employee>, finalBook: seq<string>)
    requires |batchOk| == |selected|
    requires success + fail == |selected| && success == |exported|
    requires IsSubsequence(exported, Succeeded(selected, batchOk))
    requires forall j :: 0 <= j < |selected| && batchOk[j] ==> selected[j].name in finalBook
    ensures IsSubsequence(exported, selected)
    ensures fail >= BatchFailures(batchOk)
    ensures AllBatchesOk(batchOk) ==> NamesIn(selected, finalBook)
  {
    SubsequenceTrans(exported, Succeeded(selected, batchOk), selected);
    SubsequenceMembers(exported, Succeeded(selected, batchOk));
    SucceededCount(selected, batchOk);
    if AllBatchesOk(batchOk) {
      forall e | e in selected ensures e.name in finalBook {
        var j :| 0 <= j < |selected| && selected[j] == e;
      }
    }
  }

  /** The export loop of `exportSelectedContacts`. For the `i`-th selected
      record `queryNull[i]` says whether the existence query returned a null
      cursor and `batchOk[i]` whether its batch would succeed. Every record
      counts once, as a success or a failure; a record whose name is already
      in the book is a failure and is not exported, and so is a record whose
      batch fails. A failure does not stop the loop: every record whose batch
      succeeds has its name in the final book. */
  method ExportSelected(selected: seq<Employee>, book: seq<string>, queryNull: seq<bool>, batchOk: seq<bool>)
    returns (success: nat, fail: nat, exported: seq<Employee>, finalBook: seq<string>)
    requires |queryNull| == |selected| && |batchOk| == |selected|
    ensures success + fail == |selected|
    ensures success == |exported|
    ensures IsSubsequence(exported, selected)
    ensures IsSubsequence(exported, Succeeded(selected, batchOk))
    ensures fail >= BatchFailures(batchOk)
    ensures finalBook == book + Names(exported)
    ensures AllCursors(queryNull) ==> FreshNames(book, exported)
    ensures AllBatchesOk(batchOk) && AllCursors(queryNull) ==> NamesIn(selected, finalBook)
    ensures forall i :: 0 <= i < |selected| && batchOk[i] ==> selected[i].name in finalBook
  {
    success, fail, exported, finalBook := 0, 0, [], book;
    var i := 0;
    while i < |selected|
      invariant 0 <= i <= |selected|
      invariant success + fail == i
      invariant success == |exported|
      invariant IsSubsequence(exported, Succeeded(selected[..i], batchOk[..i]))
      invariant finalBook == book + Names(exported)
      invariant AllCursors(queryNull) ==> FreshNames(book, exported)
      invariant forall j :: 0 <= j < i && batchOk[j] ==> selected[j].name in finalBook
    {
      var e := selected[i];
      var cursor := if queryNull[i] then None else Some(CountName(finalBook, e.name));
      var result := if IsContactExists(cursor) then (false, finalBook)
                    else ExportEmployeeToContacts(finalBook, e, batchOk[i]);
      SucceededStep(exported, selected, batchOk, i, result.0);
      if result.0 {
        if AllCursors(queryNull) {
          FreshNamesStep(book, exported, e);
        }
        BatchNamesStep(selected, batchOk, i, finalBook, result.1);
        NamesAppend(exported, e);
        exported := exported + [e];
        finalBook := result.1;
        success := success + 1;
      } else {
        BatchNamesStep(selected, batchOk, i, finalBook, finalBook);
        fail := fail + 1;
      }
      i := i + 1;
    }
    assert selected[..i] == selected && batchOk[..i] == batchOk;
    ExportSelectedOutcome(selected, batchOk, success, fail, exported, finalBook);
  }
}

=== FILE: importer.dfy ===
/** Reading the device address book into employee records:
    `ContactsImporter.importContacts` and its twin
    `MainActivity.readLocalContacts`.

    The content provider is an input. A contact query yields rows, and each
    row carries its own phone query's result. A cell is the outcome of asking
    the cursor for one column: the column does not exist (`getColumnIndex`
    is negative), the value is SQL NULL, the getter throws, or a value. */
module ContactImport {
  import opened Optional
  import opened Seqs
  import opened Text
  import opened Model

  /** `ContactsContract.CommonDataKinds.Phone.TYPE_*`. */
  const TYPE_MOBILE: int := 2
  const TYPE_WORK: int := 3
  const TYPE_OTHER: int := 7

  const UNKNOWN_NAME: string := "未知姓名"
  const IMPORTED_DEPARTMENT: string := "导入联系人"
  const UNKNOWN_POSITION: string := "未知"

  /** A string column of the current cursor row. */
  datatype Cell = Missing | Null | Unreadable | Val(value: string)

  /** The phone type column, read with `getInt`. What `getInt` does with a
      NULL cell is up to the cursor implementation, so such a cell is given
      here as the value it reads or as `TypeUnreadable`. */
  datatype TypeCell = TypeMissing | TypeUnreadable | TypeVal(code: int)

  datatype PhoneRow = PhoneRow(number: Cell, phoneType: TypeCell)

  /** The result of the per-contact phone query: `null`, an exception, or rows. */
  datatype PhoneQuery = PhonesNull | PhonesThrew | PhoneRows(rows: seq<PhoneRow>)

  datatype ContactRow = ContactRow(id: Cell, name: Cell, hasPhone: Cell, phones: PhoneQuery)

  /** The result of the top-level contacts query. */
  datatype ContactsQuery = ContactsNull | ContactsThrew | ContactRows(rows: seq<ContactRow>)

  /** A usable phone entry: a non-blank number and its type. */
  datatype PhoneEntry = PhoneEntry(number: string, phoneType: int)

  /** The two slots the fold fills. */
  datatype Slots = Slots(mobile: string, office: string)

  /** What a phone row whose type cannot be read becomes. */
  datatype UnreadableType = ReadAsOther | SkipEntry

  /** `getStringSafely`: a NULL cell and a throwing getter both give `null`. */
  function StringOrNull(c: Cell): (r: Option<string>)
    requires !c.Missing?
    ensures r.Some? <==> c.Val?
  {
    if c.Val? then Some(c.value) else None
  }

  // ---------------------------------------------------------------- phone rows

  /** One phone row: skipped when a column is missing or the number is NULL,
      unreadable or blank; an unreadable type follows `policy` (the importer
      reads it as `TYPE_OTHER`, the activity's `catch` drops the row). */
  function Entry(row: PhoneRow, policy: UnreadableType): (r: Option<PhoneEntry>)
    ensures r.Some? ==> row.number == Val(r.value.number) && !IsBlank(r.value.number)
    ensures r.Some? <==> ((row.number.Val? && !IsBlank(row.number.value) && row.phoneType.TypeVal?) ||
      (row.number.Val? && !IsBlank(row.number.value) && row.phoneType.TypeUnreadable? && policy == ReadAsOther))
  {
    if row.number.Missing? || row.phoneType.TypeMissing? then None
    else
      var number := StringOrNull(row.number).OrElse([]);
      if IsBlank(number) then None
      else
        match row.phoneType
        case TypeVal(t) => Some(PhoneEntry(number, t))
        case TypeUnreadable => if policy == ReadAsOther then Some(PhoneEntry(number, TYPE_OTHER)) else None
  }

  /** The usable entries of a phone cursor, in cursor order. */
  function Entries(rows: seq<PhoneRow>, policy: UnreadableType): (r: seq<PhoneEntry>)
    ensures |r| <= |rows|
    ensures forall i :: 0 <= i < |r| ==> r[i].number != [] && !IsBlank(r[i].number)
    ensures forall x :: x in r <==> exists i :: 0 <= i < |rows| && Entry(rows[i], policy) == Some(x)
  {
    if rows == [] then []
    else
      var tail := Entries(rows[1..], policy);
      assert forall i :: 0 <= i < |rows| - 1 ==> rows[1..][i] == rows[i + 1];
      match Entry(rows[0], policy)
      case None => tail
      case Some(e) => [e] + tail
  }

  /** A single phone row contributes its entry, or nothing when it is skipped. */
  lemma EntriesSingle(row: PhoneRow, policy: UnreadableType)
    ensures Entries([row], policy) == (if Entry(row, policy).Some? then [Entry(row, policy).value] else [])
  {
    assert [row][1..] == [];
  }

  lemma {:induction false} EntriesConcat(a: seq<PhoneRow>, b: seq<PhoneRow>, policy: UnreadableType)
    ensures Entries(a + b, policy) == Entries(a, policy) + Entries(b, policy)
    decreases |a|
  {
    if a == [] {
      assert a + b == b;
    } else {
      assert (a + b)[0] == a[0] && (a + b)[1..] == a[1..] + b;
      EntriesConcat(a[1..], b, policy);
    }
  }

  /** The `when (phoneType)` step: a mobile number takes the mobile slot, a
      work number the office slot, and any other type the first empty slot,
      or nothing when both are taken. */
  function Place(s: Slots, e: PhoneEntry): (r: Slots)
    ensures r.mobile == s.mobile || r.mobile == e.number
    ensures r.office == s.office || r.office == e.number
    ensures e.phoneType == TYPE_MOBILE ==> r == s.(mobile := e.number)
    ensures e.phoneType == TYPE_WORK ==> r == s.(office := e.number)
    ensures e.phoneType != TYPE_MOBILE && e.phoneType != TYPE_WORK ==>
      (s.mobile == [] ==> r == s.(mobile := e.number)) &&
      (s.mobile != [] && s.office == [] ==> r == s.(office := e.number)) &&
      (s.mobile != [] && s.office != [] ==> r == s)
  {
    if e.phoneType == TYPE_MOBILE then s.(mobile := e.number)
    else if e.phoneType == TYPE_WORK then s.(office := e.number)
    else if s.mobile == [] then s.(mobile := e.number)
    else if s.office == [] then s.(office := e.number)
    else s
  }

  /** The loop over the phone cursor, from two empty slots. Every filled slot
      holds one of the entries' numbers. */
  function FillSlots(es: seq<PhoneEntry>): (s: Slots)
    ensures s.mobile == [] || exists i :: 0 <= i < |es| && es[i].number == s.mobile
    ensures s.office == [] || exists i :: 0 <= i < |es| && es[i].number == s.office
    decreases |es|
  {
    if es == [] then Slots([], [])
    else
      var prev := FillSlots(es[..|es| - 1]);
      var s := Place(prev, es[|es| - 1]);
      assert forall i :: 0 <= i < |es| - 1 ==> es[..|es| - 1][i] == es[i];
      s
  }

  /** The number of the last entry of type `t`, if any. */
  function LastOfType(es: seq<PhoneEntry>, t: int): (r: Option<string>)
    ensures r.Some? ==> PhoneEntry(r.value, t) in es
    decreases |es|
  {
    if es == [] then None
    else if es[|es| - 1].phoneType == t then Some(es[|es| - 1].number)
    else
      var init := es[..|es| - 1];
      assert forall e :: e in init ==> e in es;
      LastOfType(init, t)
  }

  /** `LastOfType` finds an entry exactly when there is one of that type, and
      it is the entry with no later one of the same type. */
  lemma {:induction false} LastOfTypeIsLast(es: seq<PhoneEntry>, t: int)
    ensures LastOfType(es, t).Some? <==> exists i :: 0 <= i < |es| && es[i].phoneType == t
    ensures LastOfType(es, t).Some? ==> exists i :: (0 <= i < |es| &&
      es[i] == PhoneEntry(LastOfType(es, t).value, t) &&
      forall j :: i < j < |es| ==> es[j].phoneType != t)
    decreases |es|
  {
    if es != [] {
      var n := |es| - 1;
      if es[n].phoneType == t {
        assert es[n] == PhoneEntry(LastOfType(es, t).value, t);
      } else {
        var init := es[..n];
        LastOfTypeIsLast(init, t);
        assert LastOfType(es, t) == LastOfType(init, t);
        assert forall i :: 0 <= i < n ==> init[i] == es[i];
        if LastOfType(init, t).Some? {
          var i :| 0 <= i < n && init[i] == PhoneEntry(LastOfType(init, t).value, t) &&
            forall j :: i < j < n ==> init[j].phoneType != t;
          assert es[i] == PhoneEntry(LastOfType(es, t).value, t);
          assert forall j :: i < j < |es| ==> es[j].phoneType != t;
        } else {
          assert forall i :: 0 <= i < |es| ==> es[i].phoneType != t;
        }
      }
    }
  }

  predicate NonEmptyNumbers(es: seq<PhoneEntry>)
  {
    forall i :: 0 <= i < |es| ==> es[i].number != []
  }

  /** With non-empty numbers, some slot gets filled exactly when there is an
      entry; typed entries are last-write-wins: the last mobile entry fills
      the mobile slot and the last work entry the office slot, whatever
      other-typed numbers came before. */
  lemma {:induction false} FillSlotsFacts(es: seq<PhoneEntry>)
    requires NonEmptyNumbers(es)
    ensures (FillSlots(es).mobile != [] || FillSlots(es).office != []) <==> es != []
    ensures LastOfType(es, TYPE_MOBILE).Some? ==> FillSlots(es).mobile == LastOfType(es, TYPE_MOBILE).value
    ensures LastOfType(es, TYPE_WORK).Some? ==> FillSlots(es).office == LastOfType(es, TYPE_WORK).value
    decreases |es|
  {
    if es != [] {
      var init := es[..|es| - 1];
      assert NonEmptyNumbers(init) by {
        forall i | 0 <= i < |init| ensures init[i].number != [] {
          assert init[i] == es[i];
        }
      }
      FillSlotsFacts(init);
      var last := es[|es| - 1];
      assert last.number != [];
      assert FillSlots(es) == Place(FillSlots(init), last);
      if last.phoneType != TYPE_MOBILE {
        assert LastOfType(es, TYPE_MOBILE) == LastOfType(init, TYPE_MOBILE);
      }
      if last.phoneType != TYPE_WORK {
        assert LastOfType(es, TYPE_WORK) == LastOfType(init, TYPE_WORK);
      }
    }
  }

  /** Entry `i` is the first one that is not a work number. */
  predicate FirstNonWork(es: seq<PhoneEntry>, i: int)
  {
    0 <= i < |es| && es[i].phoneType != TYPE_WORK &&
    forall j :: 0 <= j < i ==> es[j].phoneType == TYPE_WORK
  }

  /** Entry `i` is the first one after the first entry that is not a mobile number. */
  predicate FirstLaterNonMobile(es: seq<PhoneEntry>, i: int)
  {
    1 <= i < |es| && es[i].phoneType != TYPE_MOBILE &&
    forall j :: 1 <= j < i ==> es[j].phoneType == TYPE_MOBILE
  }

  /** Without mobile entries the mobile slot stays empty exactly when every
      number is a work number. */
  lemma {:induction false} MobileEmptyIffAllWork(es: seq<PhoneEntry>)
    requires NonEmptyNumbers(es)
    requires forall i :: 0 <= i < |es| ==> es[i].phoneType != TYPE_MOBILE
    ensures FillSlots(es).mobile == [] <==> forall i :: 0 <= i < |es| ==> es[i].phoneType == TYPE_WORK
    decreases |es|
  {
    if es != [] {
      var n := |es| - 1;
      var init, last := es[..n], es[n];
      assert forall i :: 0 <= i < n ==> init[i] == es[i];
      MobileEmptyIffAllWork(init);
      var prev := FillSlots(init);
      assert FillSlots(es) == Place(prev, last);
      if last.phoneType == TYPE_WORK {
        assert FillSlots(es).mobile == prev.mobile;
      } else {
        assert last.number != [];
      }
    }
  }

  /** Without mobile entries the mobile slot takes the first number that is
      not a work number. */
  lemma {:induction false} OtherFillsMobile(es: seq<PhoneEntry>)
    requires NonEmptyNumbers(es)
    requires forall i :: 0 <= i < |es| ==> es[i].phoneType != TYPE_MOBILE
    ensures forall i :: 0 <= i < |es| && FirstNonWork(es, i) ==> FillSlots(es).mobile == es[i].number
    decreases |es|
  {
    if es != [] {
      var n := |es| - 1;
      var init, last := es[..n], es[n];
      assert forall i :: 0 <= i < n ==> init[i] == es[i];
      OtherFillsMobile(init);
      MobileEmptyIffAllWork(init);
      var prev := FillSlots(init);
      assert FillSlots(es) == Place(prev, last);
      forall i | 0 <= i < |es| && FirstNonWork(es, i) ensures FillSlots(es).mobile == es[i].number {
        if i < n {
          assert FirstNonWork(init, i);
          assert prev.mobile == es[i].number != [];
        } else {
          assert forall j :: 0 <= j < n ==> init[j].phoneType == TYPE_WORK;
        }
      }
    }
  }

  /** Some slot is filled as soon as there is an entry. */
  lemma SomeSlotFilled(es: seq<PhoneEntry>)
    requires NonEmptyNumbers(es) && es != []
    ensures FillSlots(es).mobile != [] || FillSlots(es).office != []
  {
    FillSlotsFacts(es);
  }

  /** Without work entries the office slot stays empty exactly when every
      number after the first is a mobile number. */
  lemma {:induction false} OfficeEmptyIffLaterMobile(es: seq<PhoneEntry>)
    requires NonEmptyNumbers(es)
    requires forall i :: 0 <= i < |es| ==> es[i].phoneType != TYPE_WORK
    ensures FillSlots(es).office == [] <==> forall i :: 1 <= i < |es| ==> es[i].phoneType == TYPE_MOBILE
    decreases |es|
  {
    if es != [] {
      var n := |es| - 1;
      var init, last := es[..n], es[n];
      assert forall i :: 0 <= i < n ==> init[i] == es[i];
      assert NonEmptyNumbers(init);
      OfficeEmptyIffLaterMobile(init);
      var prev := FillSlots(init);
      assert FillSlots(es) == Place(prev, last);
      if n > 0 {
        SomeSlotFilled(init);
        if last.phoneType == TYPE_MOBILE {
          assert FillSlots(es).office == prev.office;
        } else {
          assert last.number != [];
        }
      }
    }
  }

  /** Without work entries the office slot takes the first number after the
      first entry that is not a mobile number: by then the first entry, or a
      later mobile entry, has taken the mobile slot. */
  lemma {:induction false} OtherFillsOffice(es: seq<PhoneEntry>)
    requires NonEmptyNumbers(es)
    requires forall i :: 0 <= i < |es| ==> es[i].phoneType != TYPE_WORK
    ensures forall i :: 0 <= i < |es| && FirstLaterNonMobile(es, i) ==> FillSlots(es).office == es[i].number
    decreases |es|
  {
    if es != [] {
      var n := |es| - 1;
      var init, last := es[..n], es[n];
      assert forall i :: 0 <= i < n ==> init[i] == es[i];
      assert NonEmptyNumbers(init);
      OtherFillsOffice(init);
      var prev := FillSlots(init);
      assert FillSlots(es) == Place(prev, last);
      if n > 0 {
        OfficeEmptyIffLaterMobile(init);
        if forall j :: 1 <= j < n ==> init[j].phoneType == TYPE_MOBILE {
          SomeSlotFilled(init);
          assert prev.office == [] && prev.mobile != [];
          forall i | 0 <= i < |es| && FirstLaterNonMobile(es, i) ensures FillSlots(es).office == es[i].number {
            assert i == n;
          }
        } else {
          assert prev.office != [];
          assert FillSlots(es).office == prev.office;
          forall i | 0 <= i < |es| && FirstLaterNonMobile(es, i) ensures FillSlots(es).office == es[i].number {
            assert FirstLaterNonMobile(init, i);
          }
        }
      }
    }
  }

  /** The whole placement of the fold: typed entries are last-write-wins, and
      the other-typed ones fill the mobile slot first, then the office slot. */
  lemma FillSlotsPlacement(es: seq<PhoneEntry>)
    requires NonEmptyNumbers(es)
    ensures LastOfType(es, TYPE_MOBILE).Some? ==> FillSlots(es).mobile == LastOfType(es, TYPE_MOBILE).value
    ensures LastOfType(es, TYPE_WORK).Some? ==> FillSlots(es).office == LastOfType(es, TYPE_WORK).value
    ensures LastOfType(es, TYPE_MOBILE).None? ==>
      (FillSlots(es).mobile == [] <==> forall i :: 0 <= i < |es| ==> es[i].phoneType == TYPE_WORK)
    ensures LastOfType(es, TYPE_MOBILE).None? ==> forall i :: 0 <= i < |es| && FirstNonWork(es, i) ==> FillSlots(es).mobile == es[i].number
    ensures LastOfType(es, TYPE_WORK).None? ==>
      (FillSlots(es).office == [] <==> forall i :: 1 <= i < |es| ==> es[i].phoneType == TYPE_MOBILE)
    ensures LastOfType(es, TYPE_WORK).None? ==> forall i :: 0 <= i < |es| && FirstLaterNonMobile(es, i) ==> FillSlots(es).office == es[i].number
  {
    FillSlotsFacts(es);
    LastOfTypeIsLast(es, TYPE_MOBILE);
    LastOfTypeIsLast(es, TYPE_WORK);
    if LastOfType(es, TYPE_MOBILE).None? {
      MobileEmptyIffAllWork(es);
      OtherFillsMobile(es);
    }
    if LastOfType(es, TYPE_WORK).None? {
      OfficeEmptyIffLaterMobile(es);
      OtherFillsOffice(es);
    }
  }

  /** An other-typed number that was put in the mobile slot is replaced by a
      later mobile number and is not moved to the office slot. */
  lemma OtherDisplacedByMobile(a: string, b: string)
    requires a != [] && b != []
    ensures FillSlots([PhoneEntry(a, TYPE_OTHER), PhoneEntry(b, TYPE_MOBILE)]) == Slots(b, [])
  {
    var es := [PhoneEntry(a, TYPE_OTHER), PhoneEntry(b, TYPE_MOBILE)];
    assert es[..1] == [PhoneEntry(a, TYPE_OTHER)];
    assert es[..1][..0] == [];
  }

  /** `if (mobilePhone.isNotEmpty() || officePhone.isNotEmpty())`: the record
      with the import sentinels, or nothing. */
  function ContactRecord(name: string, s: Slots): (r: Option<Employee>)
    ensures r.Some? <==> s.mobile != [] || s.office != []
    ensures r.Some? ==> r.value == Employee(name, IMPORTED_DEPARTMENT, UNKNOWN_POSITION, s.office, s.mobile)
  {
    if s.mobile != [] || s.office != [] then
      Some(Employee(name, IMPORTED_DEPARTMENT, UNKNOWN_POSITION, s.office, s.mobile))
    else None
  }

  predicate Imported(e: Employee)
  {
    e.department == IMPORTED_DEPARTMENT && e.position == UNKNOWN_POSITION &&
    (e.mobilePhone != [] || e.officePhone != [])
  }

  /** The phone fields of a record built from the entries `es`: the last
      mobile entry's number is the mobile phone and the last work entry's
      number the office phone; without a mobile entry the mobile phone is the
      first number that is not a work number, and without a work entry the
      office phone is the first later number that is not a mobile number,
      each empty when there is no such number; every non-empty field is one
      of the numbers. */
  predicate PhonesFrom(e: Employee, es: seq<PhoneEntry>)
  {
    (LastOfType(es, TYPE_MOBILE).Some? ==> e.mobilePhone == LastOfType(es, TYPE_MOBILE).value) &&
    (LastOfType(es, TYPE_WORK).Some? ==> e.officePhone == LastOfType(es, TYPE_WORK).value) &&
    (LastOfType(es, TYPE_MOBILE).None? ==>
      (e.mobilePhone == [] <==> forall i :: 0 <= i < |es| ==> es[i].phoneType == TYPE_WORK)) &&
    (LastOfType(es, TYPE_MOBILE).None? ==> forall i :: 0 <= i < |es| && FirstNonWork(es, i) ==> e.mobilePhone == es[i].number) &&
    (LastOfType(es, TYPE_WORK).None? ==>
      (e.officePhone == [] <==> forall i :: 1 <= i < |es| ==> es[i].phoneType == TYPE_MOBILE)) &&
    (LastOfType(es, TYPE_WORK).None? ==> forall i :: 0 <= i < |es| && FirstLaterNonMobile(es, i) ==> e.officePhone == es[i].number) &&
    (e.mobilePhone == [] || exists i :: 0 <= i < |es| && es[i].number == e.mobilePhone) &&
    (e.officePhone == [] || exists i :: 0 <= i < |es| && es[i].number == e.officePhone)
  }

  /** Two other-typed numbers: any record whose phones come from them has the
      first as mobile phone and the second as office phone. */
  lemma OthersPlacedInOrder(e: Employee, a: string, b: string)
    requires PhonesFrom(e, [PhoneEntry(a, TYPE_OTHER), PhoneEntry(b, TYPE_OTHER)])
    ensures e.mobilePhone == a && e.officePhone == b
  {
    var es := [PhoneEntry(a, TYPE_OTHER), PhoneEntry(b, TYPE_OTHER)];
    assert es[..1] == [PhoneEntry(a, TYPE_OTHER)] && es[..1][..0] == [];
    assert LastOfType(es, TYPE_MOBILE).None? && LastOfType(es, TYPE_WORK).None?;
    assert FirstNonWork(es, 0) && FirstLaterNonMobile(es, 1);
  }

  /** The phone half of a contact: a record exactly when the phone query
      returned rows and at least one of them is usable under `policy`; its
      numbers come from those entries. */
  function PhoneRecord(phones: PhoneQuery, name: string, policy: UnreadableType): (r: Option<Employee>)
    ensures r.Some? <==> phones.PhoneRows? && Entries(phones.rows, policy) != []
    ensures r.Some? ==> Imported(r.value) && r.value.name == name
    ensures r.Some? ==> phones.PhoneRows? && PhonesFrom(r.value, Entries(phones.rows, policy))
  {
    match phones
    case PhonesNull => None
    case PhonesThrew => None
    case PhoneRows(rows) =>
      var es := Entries(rows, policy);
      FillSlotsFacts(es);
      FillSlotsPlacement(es);
      ContactRecord(name, FillSlots(es))
  }

  /** `getPhoneNumbers`: a null cursor or any exception gives `null`. */
  function GetPhoneNumbers(phones: PhoneQuery, name: string): (r: Option<Employee>)
    ensures r.Some? <==> phones.PhoneRows? && Entries(phones.rows, ReadAsOther) != []
    ensures r.Some? ==> Imported(r.value) && r.value.name == name
    ensures r.Some? ==> phones.PhoneRows? && PhonesFrom(r.value, Entries(phones.rows, ReadAsOther))
  {
    PhoneRecord(phones, name, ReadAsOther)
  }

  // ---------------------------------------------------------------- contacts

  /** `hasPhoneStr.toInt() > 0`, with a failed conversion read as false. */
  predicate HasPhone(text: string)
  {
    ParseInt(text).Some? && ParseInt(text).value > 0
  }

  /** The importer's body for one contact row. */
  function ImportContact(row: ContactRow): (r: Option<Employee>)
    ensures r.Some? <==>
      row.id.Val? && !row.name.Missing? && row.hasPhone.Val? && HasPhone(row.hasPhone.value) &&
      row.phones.PhoneRows? && Entries(row.phones.rows, ReadAsOther) != []
    ensures r.Some? ==> (Imported(r.value) &&
      r.value.name == (if row.name.Val? then row.name.value else UNKNOWN_NAME))
    ensures r.Some? ==> row.phones.PhoneRows? && PhonesFrom(r.value, Entries(row.phones.rows, ReadAsOther))
  {
    if row.id.Missing? || row.name.Missing? || row.hasPhone.Missing? then None
    else
      var id := StringOrNull(row.id);
      var name := StringOrNull(row.name).OrElse(UNKNOWN_NAME);
      var hasPhoneText := StringOrNull(row.hasPhone).OrElse("0");
      assert !HasPhone("0") by { assert "0"[0..] == "0"; }
      if HasPhone(hasPhoneText) && id.Some? then GetPhoneNumbers(row.phones, name)
      else None
  }

  /** Keeps the records `one` makes from the rows, in row order. */
  function Collect(rows: seq<ContactRow>, one: ContactRow -> Option<Employee>): (r: seq<Employee>)
    ensures |r| <= |rows|
    ensures forall e :: e in r ==> exists i :: 0 <= i < |rows| && one(rows[i]) == Some(e)
    ensures forall i :: 0 <= i < |rows| && one(rows[i]).Some? ==> one(rows[i]).value in r
  {
    if rows == [] then []
    else
      var tail := Collect(rows[1..], one);
      assert forall i :: 0 <= i < |rows| - 1 ==> rows[1..][i] == rows[i + 1];
      match one(rows[0])
      case None => tail
      case Some(e) => [e] + tail
  }

  /** A single row contributes its record, or nothing. */
  lemma CollectSingle(row: ContactRow, one: ContactRow -> Option<Employee>)
    ensures Collect([row], one) == (if one(row).Some? then [one(row).value] else [])
  {
    assert [row][1..] == [];
  }

  lemma {:induction false} CollectConcat(a: seq<ContactRow>, b: seq<ContactRow>, one: ContactRow -> Option<Employee>)
    ensures Collect(a + b, one) == Collect(a, one) + Collect(b, one)
    decreases |a|
  {
    if a == [] {
      assert a + b == b;
    } else {
      assert (a + b)[0] == a[0] && (a + b)[1..] == a[1..] + b;
      CollectConcat(a[1..], b, one);
    }
  }

  /** `importContacts`: a null cursor or a failed query gives no records;
      otherwise at most one record per contact row, each with a phone and the
      import sentinels. */
  function ImportContacts(q: ContactsQuery): (r: seq<Employee>)
    ensures !q.ContactRows? ==> r == []
    ensures q.ContactRows? ==> |r| <= |q.rows|
    ensures forall e :: e in r ==> Imported(e)
    ensures q.ContactRows? ==> forall e :: e in r ==> exists i :: 0 <= i < |q.rows| && ImportContact(q.rows[i]) == Some(e)
    ensures q.ContactRows? ==> forall i :: 0 <= i < |q.rows| && ImportContact(q.rows[i]).Some? ==> ImportContact(q.rows[i]).value in r
  {
    match q
    case ContactsNull => []
    case ContactsThrew => []
    case ContactRows(rows) => Collect(rows, ImportContact)
  }

  /** Contacts are processed independently and their records keep the
      cursor's order. */
  lemma ImportContactsConcat(a: seq<ContactRow>, b: seq<ContactRow>)
    ensures ImportContacts(ContactRows(a + b)) == ImportContacts(ContactRows(a)) + ImportContacts(ContactRows(b))
  {
    CollectConcat(a, b, ImportContact);
  }

  /** One contact row gives its record, or none. */
  lemma ImportContactsSingle(row: ContactRow)
    ensures ImportContacts(ContactRows([row])) ==
      (if ImportContact(row).Some? then [ImportContact(row).value] else [])
  {
    CollectSingle(row, ImportContact);
  }

  /** The body of `readLocalContacts` for one contact row: a getter that
      throws, a NULL or non-numeric `hasPhone`, a null phone cursor or a
      failed phone query each skip the contact through its `catch`; a NULL
      id is passed on to the phone query. */
  function ReadLocalContact(row: ContactRow): (r: Option<Employee>)
    ensures r.Some? <==>
      (row.id.Val? || row.id.Null?) && (row.name.Val? || row.name.Null?) &&
      row.hasPhone.Val? && HasPhone(row.hasPhone.value) &&
      row.phones.PhoneRows? && Entries(row.phones.rows, SkipEntry) != []
    ensures r.Some? ==> (Imported(r.value) &&
      r.value.name == (if row.name.Val? then row.name.value else UNKNOWN_NAME))
    ensures r.Some? ==> row.phones.PhoneRows? && PhonesFrom(r.value, Entries(row.phones.rows, SkipEntry))
  {
    if row.id.Missing? || row.name.Missing? || row.hasPhone.Missing? then None
    else if row.id.Unreadable? || row.name.Unreadable? || row.hasPhone.Unreadable? then None
    else if row.hasPhone.Null? then None
    else
      var name := if row.name.Val? then row.name.value else UNKNOWN_NAME;
      if HasPhone(row.hasPhone.value) then PhoneRecord(row.phones, name, SkipEntry)
      else None
  }

  /** `readLocalContacts`. */
  function ReadLocalContacts(q: ContactsQuery): (r: seq<Employee>)
    ensures !q.ContactRows? ==> r == []
    ensures q.ContactRows? ==> |r| <= |q.rows|
    ensures forall e :: e in r ==> Imported(e)
    ensures q.ContactRows? ==> forall e :: e in r ==> exists i :: 0 <= i < |q.rows| && ReadLocalContact(q.rows[i]) == Some(e)
    ensures q.ContactRows? ==> forall i :: 0 <= i < |q.rows| && ReadLocalContact(q.rows[i]).Some? ==> ReadLocalContact(q.rows[i]).value in r
  {
    match q
    case ContactsNull => []
    case ContactsThrew => []
    case ContactRows(rows) => Collect(rows, ReadLocalContact)
  }

  /** The activity's reader also treats contacts independently, in order. */
  lemma ReadLocalContactsConcat(a: seq<ContactRow>, b: seq<ContactRow>)
    ensures ReadLocalContacts(ContactRows(a + b)) == ReadLocalContacts(ContactRows(a)) + ReadLocalContacts(ContactRows(b))
  {
    CollectConcat(a, b, ReadLocalContact);
  }

  /** One contact row gives its record, or none. */
  lemma ReadLocalContactsSingle(row: ContactRow)
    ensures ReadLocalContacts(ContactRows([row])) ==
      (if ReadLocalContact(row).Some? then [ReadLocalContact(row).value] else [])
  {
    CollectSingle(row, ReadLocalContact);
  }

  /** The rows on which the two readers cannot disagree: the name can be
      read, the id is not NULL, and every phone type can be read. */
  predicate Unambiguous(row: ContactRow)
  {
    !row.name.Unreadable? && !row.id.Null? &&
    (row.phones.PhoneRows? ==> forall i :: 0 <= i < |row.phones.rows| ==> !row.phones.rows[i].phoneType.TypeUnreadable?)
  }

  lemma {:induction false} EntriesPolicyIrrelevant(rows: seq<PhoneRow>)
    requires forall i :: 0 <= i < |rows| ==> !rows[i].phoneType.TypeUnreadable?
    ensures Entries(rows, ReadAsOther) == Entries(rows, SkipEntry)
    decreases |rows|
  {
    if rows != [] {
      EntriesPolicyIrrelevant(rows[1..]);
    }
  }

  lemma ContactReadersAgree(row: ContactRow)
    requires Unambiguous(row)
    ensures ImportContact(row) == ReadLocalContact(row)
  {
    if row.phones.PhoneRows? {
      EntriesPolicyIrrelevant(row.phones.rows);
    }
  }

  /** On such rows the activity's reader and the importer return the same
      records. */
  lemma {:induction false} ReadersAgree(rows: seq<ContactRow>)
    requires forall i :: 0 <= i < |rows| ==> Unambiguous(rows[i])
    ensures ImportContacts(ContactRows(rows)) == ReadLocalContacts(ContactRows(rows))
    decreases |rows|
  {
    if rows != [] {
      ContactReadersAgree(rows[0]);
      ReadersAgree(rows[1..]);
    }
  }

  /** A contact whose only phone has an unreadable type: the importer keeps
      its number in the mobile slot, the activity's reader drops it. */
  lemma ReadersDifferOnUnreadableType()
    ensures var row := ContactRow(Val("1"), Val("Li"), Val("1"),
                                  PhoneRows([PhoneRow(Val("555"), TypeUnreadable)]));
      ImportContact(row) == Some(Employee("Li", IMPORTED_DEPARTMENT, UNKNOWN_POSITION, [], "555")) &&
      ReadLocalContact(row).None?
  {
    var rows := [PhoneRow(Val("555"), TypeUnreadable)];
    assert !IsBlank("555") by { assert !IsWhitespace("555"[0]); }
    assert Entries(rows, ReadAsOther) == [PhoneEntry("555", TYPE_OTHER)] by {
      assert rows[1..] == [];
    }
    assert Entries(rows, SkipEntry) == [] by {
      assert rows[1..] == [];
    }
    var es := [PhoneEntry("555", TYPE_OTHER)];
    assert es[..0] == [];
    assert FillSlots(es) == Slots("555", []);
    assert HasPhone("1") by { assert "1"[0..] == "1"; }
  }
}

=== FILE: optional.dfy ===
/** Kotlin's nullable values (`T?`) and the failure-or-value results of
    operations that throw. */
module Optional {

  datatype Option<+T> = None | Some(value: T) {

    /** Kotlin's elvis operator `x ?: default`. */
    function OrElse(default: T): T
    {
      match this
      case Some(v) => v
      case None => default
    }
  }
}

=== FILE: ordering.dfy ===
/** `distinct().sorted()` on lists of strings: the result is strictly
    ascending in `compareTo` order and holds exactly the input's values. */
module Ordering {
  import opened Seqs
  import opened Text

  predicate StrictlyAscending(xs: seq<string>)
  {
    forall i, j :: 0 <= i < j < |xs| ==> Less(xs[i], xs[j])
  }

  /** Inserts `x` at its place in an ascending list; a value already present
      is not inserted twice. */
  function InsertSorted(xs: seq<string>, x: string): (r: seq<string>)
    requires StrictlyAscending(xs)
    ensures StrictlyAscending(r)
    ensures Elems(r) == Elems(xs) + {x}
    decreases |xs|
  {
    if xs == [] then [x]
    else if x == xs[0] then xs
    else if Less(x, xs[0]) then
      HeadBelowTail(xs);
      forall y | y in xs ensures Less(x, y) {
        if y != xs[0] {
          assert y in xs[1..];
          LessTransitive(x, xs[0], y);
        }
      }
      ConsAscending(x, xs);
      [x] + xs
    else
      var rest := InsertSorted(xs[1..], x);
      LessTotal(x, xs[0]);
      HeadBelowTail(xs);
      assert xs == [xs[0]] + xs[1..];
      ElemsConcat([xs[0]], xs[1..]);
      forall y | y in rest ensures Less(xs[0], y) {
        assert y in Elems(rest);
      }
      ConsAscending(xs[0], rest);
      ElemsConcat([xs[0]], rest);
      [xs[0]] + rest
  }

  /** Every later element of an ascending list is above its head. */
  lemma HeadBelowTail(xs: seq<string>)
    requires StrictlyAscending(xs) && xs != []
    ensures forall y :: y in xs[1..] ==> Less(xs[0], y)
  {
    forall y | y in xs[1..] ensures Less(xs[0], y) {
      var k :| 0 <= k < |xs[1..]| && xs[1..][k] == y;
      assert xs[k + 1] == y;
    }
  }

  /** A head below every element of an ascending list keeps it ascending. */
  lemma ConsAscending(h: string, rest: seq<string>)
    requires StrictlyAscending(rest)
    requires forall y :: y in rest ==> Less(h, y)
    ensures StrictlyAscending([h] + rest)
  {
    var r := [h] + rest;
    forall i, j | 0 <= i < j < |r| ensures Less(r[i], r[j]) {
      if i == 0 {
        assert r[j] == rest[j - 1];
      } else {
        assert r[i] == rest[i - 1] && r[j] == rest[j - 1];
      }
    }
  }

  /** `values.distinct().sorted()`. */
  function SortDistinct(values: seq<string>): (r: seq<string>)
    ensures StrictlyAscending(r)
    ensures Elems(r) == Elems(values)
    decreases |values|
  {
    if values == [] then []
    else
      var r := InsertSorted(SortDistinct(values[..|values| - 1]), values[|values| - 1]);
      assert values == values[..|values| - 1] + [values[|values| - 1]];
      r
  }

  lemma AscendingNoDuplicates(xs: seq<string>)
    requires StrictlyAscending(xs)
    ensures NoDuplicates(xs)
  {
    forall i, j | 0 <= i < j < |xs| ensures xs[i] != xs[j] {
      LessIrreflexive(xs[i]);
    }
  }

  /** There is only one strictly ascending list of a given set of strings, so
      any two ways of computing a sorted distinct list agree. */
  lemma {:induction false} AscendingUnique(a: seq<string>, b: seq<string>)
    requires StrictlyAscending(a) && StrictlyAscending(b)
    requires Elems(a) == Elems(b)
    ensures a == b
    decreases |a|
  {
    if a != [] {
      assert a[0] in Elems(b);
      assert b != [];
      assert b[0] in Elems(a);
      if a[0] != b[0] {
        var i :| 0 <= i < |a| && a[i] == b[0];
        var j :| 0 <= j < |b| && b[j] == a[0];
        LessAsymmetric(a[0], a[i]);
      }
      AscendingNoDuplicates(a);
      AscendingNoDuplicates(b);
      assert a == [a[0]] + a[1..] && b == [b[0]] + b[1..];
      assert Elems(a[1..]) == Elems(a) - {a[0]};
      assert Elems(b[1..]) == Elems(b) - {b[0]};
      AscendingUnique(a[1..], b[1..]);
    } else {
      ElemsEmpty(b);
    }
  }
}

=== FILE: record_store.dfy ===
/** `EmployeeDataManager`: the in-memory employee list, its JSON backing file
    and the queries over it.

    JSON text is below the level of this model: a document is either not a
    JSON array (what `JSONArray(text)` rejects) or an array of elements, and an
    element is either a `JSONObject` or something else. Reading the bundled
    seed or the local file can fail with an `IOException`. */
module RecordStore {
  import opened Optional
  import opened Seqs
  import opened Text
  import opened Model
  import opened Ordering

  /** A member value of a JSON object: a string, or any other value, which
      `JSONObject.getString` coerces to its printed text. */
  datatype FieldValue = JString(s: string) | JLiteral(text: string)

  datatype JsonElement = JObject(fields: map<string, FieldValue>) | JNonObject

  datatype JsonDoc = NotAnArray | JsonArray(elements: seq<JsonElement>)

  /** The outcome of reading a file's whole text. */
  datatype ReadResult = IoFailure | Content(doc: JsonDoc)

  /** `local_employees.json` in the app's private directory. */
  datatype LocalFile = Absent | Present(read: ReadResult)

  /** The manager's state: the current list and the backing file. */
  datatype Store = Store(employees: seq<Employee>, file: LocalFile)

  // ---------------------------------------------------------------- JSON

  /** The text `getString` answers for a present value: a string as it is,
      any other scalar as its JSON text. */
  function FieldText(v: FieldValue): string
  {
    match v
    case JString(s) => s
    case JLiteral(t) => t
  }

  /** `jsonObject.getString(key)`; `None` is the `JSONException` for a missing key. */
  function GetString(fields: map<string, FieldValue>, key: string): (r: Option<string>)
    ensures r.None? <==> key !in fields
    ensures r.Some? ==> r.value == FieldText(fields[key])
  {
    if key !in fields then None else Some(FieldText(fields[key]))
  }

  /** `getJSONObject(i)` followed by `parseEmployeeFromJson`; `None` is a
      `JSONException` (the element is not an object or lacks one of the five keys). */
  function ParseEmployee(e: JsonElement): (r: Option<Employee>)
    ensures r.Some? <==> (e.JObject? &&
      forall k :: k in ["name", "department", "position", "officePhone", "mobilePhone"] ==> k in e.fields)
    ensures r.Some? ==> r.value.name == FieldText(e.fields["name"])
    ensures r.Some? ==> r.value.department == FieldText(e.fields["department"])
    ensures r.Some? ==> r.value.position == FieldText(e.fields["position"])
    ensures r.Some? ==> r.value.officePhone == FieldText(e.fields["officePhone"])
    ensures r.Some? ==> r.value.mobilePhone == FieldText(e.fields["mobilePhone"])
  {
    match e
    case JNonObject => None
    case JObject(o) =>
      var name := GetString(o, "name");
      var department := GetString(o, "department");
      var position := GetString(o, "position");
      var office := GetString(o, "officePhone");
      var mobile := GetString(o, "mobilePhone");
      if name.None? || department.None? || position.None? || office.None? || mobile.None? then None
      else Some(Employee(name.value, department.value, position.value, office.value, mobile.value))
  }

  /** The parse loop of `loadEmployeesFromJson` and `loadLocalEmployees`: the
      first bad element aborts the whole parse, nothing is kept. */
  function ParseEmployees(es: seq<JsonElement>): (r: Option<seq<Employee>>)
    ensures r.Some? <==> forall i :: 0 <= i < |es| ==> ParseEmployee(es[i]).Some?
    ensures r.Some? ==> (|r.value| == |es| &&
      forall i :: 0 <= i < |es| ==> ParseEmployee(es[i]) == Some(r.value[i]))
    decreases |es|
  {
    if es == [] then Some([])
    else
      var head := ParseEmployee(es[0]);
      var rest := ParseEmployees(es[1..]);
      if head.None? then None
      else if rest.None? then
        assert exists i :: 1 <= i < |es| && ParseEmployee(es[i]).None? by {
          var j :| 0 <= j < |es[1..]| && ParseEmployee(es[1..][j]).None?;
          assert es[j + 1] == es[1..][j];
        }
        None
      else
        var r := [head.value] + rest.value;
        assert forall i :: 1 <= i < |es| ==> es[i] == es[1..][i - 1];
        Some(r)
  }

  function ParseDoc(doc: JsonDoc): Option<seq<Employee>>
  {
    match doc
    case NotAnArray => None
    case JsonArray(es) => ParseEmployees(es)
  }

  /** The object `saveEmployeesToLocal` builds for one employee. */
  function EmployeeToJson(e: Employee): JsonElement
  {
    JObject(map[
      "name" := JString(e.name),
      "department" := JString(e.department),
      "position" := JString(e.position),
      "officePhone" := JString(e.officePhone),
      "mobilePhone" := JString(e.mobilePhone)])
  }

  function Serialize(list: seq<Employee>): (doc: JsonDoc)
    ensures doc.JsonArray? && |doc.elements| == |list|
  {
    JsonArray(Map(list, EmployeeToJson))
  }

  lemma ParseEmployeeRoundTrip(e: Employee)
    ensures ParseEmployee(EmployeeToJson(e)) == Some(e)
  {
  }

  /** Saving a list and parsing the file back yields the identical list. */
  lemma {:induction false} SaveParseRoundTrip(list: seq<Employee>)
    ensures ParseDoc(Serialize(list)) == Some(list)
  {
    var es := Serialize(list).elements;
    forall i | 0 <= i < |es| ensures ParseEmployee(es[i]) == Some(list[i]) {
      ParseEmployeeRoundTrip(list[i]);
    }
    var r := ParseEmployees(es);
    assert r.Some?;
    assert r.value == list;
  }

  // ---------------------------------------------------------------- loading

  /** `loadLocalEmployees`: an absent file, a failed read or any parse failure
      keeps the list it had (empty when called from the constructor). */
  function LoadLocal(file: LocalFile, prior: seq<Employee>): (r: seq<Employee>)
    ensures file.Absent? || file.read.IoFailure? ==> r == prior
    ensures file.Present? && file.read.Content? && ParseDoc(file.read.doc).None? ==> r == prior
    ensures file.Present? && file.read.Content? && ParseDoc(file.read.doc).Some? ==>
      r == ParseDoc(file.read.doc).value
  {
    match file
    case Absent => prior
    case Present(IoFailure) => prior
    case Present(Content(doc)) =>
      match ParseDoc(doc)
      case None => prior
      case Some(list) => list
  }

  /** The constructor: an empty list, then `loadLocalEmployees`. */
  function NewStore(file: LocalFile): (s: Store)
    ensures s.file == file
    ensures file.Absent? ==> s.employees == []
  {
    Store(LoadLocal(file, []), file)
  }

  /** The merge in `loadEmployeesFromJson`: the seed records in order, then
      the previously held records whose name is not a seed name. */
  function MergeSeed(seed: seq<Employee>, held: seq<Employee>): (r: seq<Employee>)
    ensures |seed| <= |r| && r[..|seed|] == seed
    ensures IsSubsequence(r[|seed|..], held)
    ensures forall i :: |seed| <= i < |r| ==> r[i].name !in Names(seed)
    ensures forall e :: e in r <==> e in seed || (e in held && e.name !in Names(seed))
    ensures forall e :: multiset(r[|seed|..])[e] == if e.name in Names(seed) then 0 else multiset(held)[e]
  {
    var kept := Filter(held, NameNotIn(Names(seed)));
    var r := seed + kept;
    assert r[|seed|..] == kept;
    FilterMultiset(held, NameNotIn(Names(seed)));
    forall i | |seed| <= i < |r| ensures r[i].name !in Names(seed) {
      assert r[i] in kept;
    }
    r
  }

  /** Loading the seed again over an already merged list changes nothing:
      the records kept from before are exactly those of the first merge. */
  lemma MergeSeedIdempotent(seed: seq<Employee>, held: seq<Employee>)
    ensures MergeSeed(seed, MergeSeed(seed, held)) == MergeSeed(seed, held)
  {
    var p := NameNotIn(Names(seed));
    var kept := Filter(held, p);
    var m := MergeSeed(seed, held);
    assert m == seed + kept;
    FilterConcat(seed, kept, p);
    FilterNone(seed, p);
    FilterAll(kept, p);
    assert Filter(m, p) == kept;
    assert MergeSeed(seed, m) == seed + Filter(m, p);
  }

  /** With no name shared between the seed and the held records, the merge
      keeps everything: N seed records and M held ones give N + M. */
  lemma MergeSeedDisjoint(seed: seq<Employee>, held: seq<Employee>)
    requires forall e :: e in held ==> e.name !in Names(seed)
    ensures MergeSeed(seed, held) == seed + held
    ensures |MergeSeed(seed, held)| == |seed| + |held|
  {
    FilterAll(held, NameNotIn(Names(seed)));
  }

  /** When each side has unique names, so does the merge, and its names are
      those of both sides: its length is the number of distinct names. */
  lemma MergeSeedNames(seed: seq<Employee>, held: seq<Employee>)
    requires NoDuplicates(Names(seed)) && NoDuplicates(Names(held))
    ensures NoDuplicates(Names(MergeSeed(seed, held)))
    ensures Elems(Names(MergeSeed(seed, held))) == Elems(Names(seed)) + Elems(Names(held))
    ensures |MergeSeed(seed, held)| == |Elems(Names(seed)) + Elems(Names(held))|
  {
    var kept := Filter(held, NameNotIn(Names(seed)));
    var r := MergeSeed(seed, held);
    var ns, nk := Names(seed), Names(kept);
    assert Names(r) == ns + nk by {
      assert r == seed + kept;
      FieldValuesConcat(seed, kept, NameField);
    }
    KeptNamesUnique(kept, held);
    KeptNamesOutsideSeed(seed, held);
    NoDuplicatesConcat(ns, nk);
    KeptNames(seed, held);
    ElemsConcat(ns, nk);
    NoDuplicatesCard(Names(r));
  }

  /** No name kept from `held` is a seed name. */
  lemma KeptNamesOutsideSeed(seed: seq<Employee>, held: seq<Employee>)
    ensures forall n :: n in Names(Filter(held, NameNotIn(Names(seed)))) ==> n !in Names(seed)
  {
    var kept := Filter(held, NameNotIn(Names(seed)));
    forall n | n in Names(kept) ensures n !in Names(seed) {
      var k :| 0 <= k < |kept| && Names(kept)[k] == n;
      assert kept[k] in kept;
    }
  }

  /** The names kept from `held` together with the seed names are all the names. */
  lemma KeptNames(seed: seq<Employee>, held: seq<Employee>)
    ensures Elems(Names(seed)) + Elems(Names(Filter(held, NameNotIn(Names(seed)))))
      == Elems(Names(seed)) + Elems(Names(held))
  {
    var kept := Filter(held, NameNotIn(Names(seed)));
    forall n | n in Elems(Names(held)) && n !in Elems(Names(seed))
      ensures n in Elems(Names(kept))
    {
      var k :| 0 <= k < |held| && held[k].name == n;
      assert held[k] in kept;
      var m :| 0 <= m < |kept| && kept[m] == held[k];
      assert Names(kept)[m] == n;
    }
    forall n | n in Elems(Names(kept)) ensures n in Elems(Names(held)) {
      var m :| 0 <= m < |kept| && Names(kept)[m] == n;
      assert kept[m] in held;
      var k :| 0 <= k < |held| && held[k] == kept[m];
      assert Names(held)[k] == n;
    }
  }

  /** A subsequence of a name-unique list is name-unique. */
  lemma KeptNamesUnique(kept: seq<Employee>, held: seq<Employee>)
    requires IsSubsequence(kept, held) && NoDuplicates(Names(held))
    ensures NoDuplicates(Names(kept))
  {
    forall i, j | 0 <= i < j < |kept| ensures Names(kept)[i] != Names(kept)[j] {
      KeptNamesDistinct(kept, held, i, j);
    }
  }

  /** Two positions of a subsequence of a name-unique list hold different names. */
  lemma {:induction false} KeptNamesDistinct(kept: seq<Employee>, held: seq<Employee>, i: nat, j: nat)
    requires IsSubsequence(kept, held) && NoDuplicates(Names(held))
    requires i < j < |kept|
    ensures kept[i].name != kept[j].name
    decreases |held|
  {
    assert held != [];
    if kept[0] == held[0] {
      if i == 0 {
        SubsequenceMembers(kept[1..], held[1..]);
        assert kept[j] in held[1..];
        var k :| 0 <= k < |held[1..]| && held[1..][k] == kept[j];
        assert Names(held)[0] != Names(held)[k + 1];
      } else {
        assert NoDuplicates(Names(held[1..])) by {
          forall a, b | 0 <= a < b < |held[1..]| ensures Names(held[1..])[a] != Names(held[1..])[b] {
            assert Names(held)[a + 1] != Names(held)[b + 1];
          }
        }
        KeptNamesDistinct(kept[1..], held[1..], i - 1, j - 1);
      }
    } else {
      assert NoDuplicates(Names(held[1..])) by {
        forall a, b | 0 <= a < b < |held[1..]| ensures Names(held[1..])[a] != Names(held[1..])[b] {
          assert Names(held)[a + 1] != Names(held)[b + 1];
        }
      }
      KeptNamesDistinct(kept, held[1..], i, j);
    }
  }

  /** How `loadEmployeesFromJson` ended: `true`; `false` after an
      `IOException`; or a `JSONException` that escapes to the caller. */
  datatype SeedOutcome = Loaded | ReadFailed | ParseFailed

  datatype SeedLoad = SeedLoad(store: Store, outcome: SeedOutcome)

  /** `loadEmployeesFromJson`: the list is replaced only after the whole seed
      parsed; a read or parse failure leaves the store as it was. */
  function LoadEmployeesFromJson(s: Store, seed: ReadResult): (r: SeedLoad)
    ensures r.outcome == ReadFailed <==> seed.IoFailure?
    ensures r.outcome == ParseFailed <==> seed.Content? && ParseDoc(seed.doc).None?
    ensures r.outcome != Loaded ==> r.store == s
    ensures r.store.file == s.file
    ensures r.outcome == Loaded ==>
      var parsed := ParseDoc(seed.doc).value;
      |parsed| <= |r.store.employees| && r.store.employees[..|parsed|] == parsed &&
      forall e :: e in r.store.employees <==> e in parsed || (e in s.employees && e.name !in Names(parsed))
    ensures r.outcome == Loaded ==> r.store.employees == MergeSeed(ParseDoc(seed.doc).value, s.employees)
  {
    match seed
    case IoFailure => SeedLoad(s, ReadFailed)
    case Content(doc) =>
      match ParseDoc(doc)
      case None => SeedLoad(s, ParseFailed)
      case Some(parsed) => SeedLoad(s.(employees := MergeSeed(parsed, s.employees)), Loaded)
  }

  // ---------------------------------------------------------------- saving

  /** `saveEmployeesToLocal`: a successful write replaces the file with the
      whole list; a failed write is only logged and leaves the file as it was. */
  function SaveEmployeesToLocal(s: Store, writeOk: bool): (r: Store)
    ensures r.employees == s.employees
    ensures writeOk ==> LoadLocal(r.file, []) == s.employees
    ensures !writeOk ==> r.file == s.file
  {
    if writeOk then
      SaveParseRoundTrip(s.employees);
      s.(file := Present(Content(Serialize(s.employees))))
    else s
  }

  /** `updateEmployeeList`: replace the list, then save it. The in-memory list
      is replaced even when the write fails. */
  function UpdateEmployeeList(s: Store, newList: seq<Employee>, writeOk: bool): (r: Store)
    ensures GetAllEmployees(r) == newList
    ensures writeOk ==> NewStore(r.file).employees == newList
    ensures !writeOk ==> r.file == s.file
  {
    SaveEmployeesToLocal(s.(employees := newList), writeOk)
  }

  function GetAllEmployees(s: Store): seq<Employee>
  {
    s.employees
  }

  // ---------------------------------------------------------------- queries

  /** The shared body of `searchByName`, `searchByDepartment` and
      `searchByPosition`: an empty query returns the whole list, otherwise the
      records whose field contains the query ignoring case, in list order. */
  function SearchByField(list: seq<Employee>, f: Field, query: string): (r: seq<Employee>)
    ensures query == [] ==> r == list
    ensures IsSubsequence(r, list)
    ensures forall e :: e in r <==> e in list && ContainsIgnoreCase(FieldOf(e, f), query)
    ensures forall e :: (multiset(r)[e] ==
      if ContainsIgnoreCase(FieldOf(e, f), query) then multiset(list)[e] else 0)
  {
    if query == [] then
      SubsequenceRefl(list);
      forall e ensures ContainsIgnoreCase(FieldOf(e, f), query) {
        assert RegionMatchesIgnoreCase(FieldOf(e, f), 0, query);
      }
      list
    else
      FilterMultiset(list, FieldContains(f, query));
      Filter(list, FieldContains(f, query))
  }

  function SearchByName(s: Store, query: string): seq<Employee>
  {
    SearchByField(s.employees, NameField, query)
  }

  function SearchByDepartment(s: Store, query: string): seq<Employee>
  {
    SearchByField(s.employees, DepartmentField, query)
  }

  function SearchByPosition(s: Store, query: string): seq<Employee>
  {
    SearchByField(s.employees, PositionField, query)
  }

  /** `it.name.contains(q, true) || it.department.contains(q, true)`. */
  function NameOrDepartmentContains(query: string): Employee -> bool
  {
    (e: Employee) => ContainsIgnoreCase(e.name, query) || ContainsIgnoreCase(e.department, query)
  }

  /** `search`: records matching the query on name or on department. */
  function Search(s: Store, query: string): (r: seq<Employee>)
    ensures query == [] ==> r == s.employees
    ensures IsSubsequence(r, s.employees)
    ensures query != [] ==> forall e :: e in r <==>
      e in s.employees && (ContainsIgnoreCase(e.name, query) || ContainsIgnoreCase(e.department, query))
    ensures forall e :: (multiset(r)[e] ==
      if query == [] || ContainsIgnoreCase(e.name, query) || ContainsIgnoreCase(e.department, query)
      then multiset(s.employees)[e] else 0)
  {
    if query == [] then
      SubsequenceRefl(s.employees);
      s.employees
    else
      FilterMultiset(s.employees, NameOrDepartmentContains(query));
      Filter(s.employees, NameOrDepartmentContains(query))
  }

  /** The general search finds everything the name search and the department
      search find, in the same relative order. */
  lemma SearchCoversFieldSearches(s: Store, query: string)
    ensures IsSubsequence(SearchByName(s, query), Search(s, query))
    ensures IsSubsequence(SearchByDepartment(s, query), Search(s, query))
  {
    if query == [] {
      SubsequenceRefl(s.employees);
    } else {
      FilterMonotone(s.employees, FieldContains(NameField, query), NameOrDepartmentContains(query));
      FilterMonotone(s.employees, FieldContains(DepartmentField, query), NameOrDepartmentContains(query));
    }
  }

  /** `list.map { it.<field> }.distinct().sorted()`. */
  function DistinctSorted(list: seq<Employee>, f: Field): (r: seq<string>)
    ensures StrictlyAscending(r)
    ensures NoDuplicates(r)
    ensures forall v :: v in r <==> exists i :: 0 <= i < |list| && FieldOf(list[i], f) == v
  {
    var values := FieldValues(list, f);
    var r := SortDistinct(values);
    AscendingNoDuplicates(r);
    forall v ensures v in r <==> exists i :: 0 <= i < |list| && FieldOf(list[i], f) == v {
      assert v in r <==> v in Elems(r);
      assert v in values <==> v in Elems(values);
      if v in values {
        var i :| 0 <= i < |values| && values[i] == v;
        assert FieldOf(list[i], f) == v;
      }
    }
    r
  }

  function GetAllDepartments(s: Store): seq<string>
  {
    DistinctSorted(s.employees, DepartmentField)
  }

  function GetAllPositions(s: Store): seq<string>
  {
    DistinctSorted(s.employees, PositionField)
  }
}

=== FILE: selection.dfy ===
/** The home list's multi-selection. `EmployeeAdapter` keeps the highlighted
    employees in a set; `HomeFragment` keeps, in parallel, a list of the
    employees it will export and toggles both on every click. Employees are
    Kotlin data classes, so both collections compare them by value. */
module Selection {
  import opened Seqs
  import opened Text
  import opened Optional
  import opened Model
  import opened ContactImport

  /** The adapter's state: the rows it shows and the set it highlights. */
  datatype Adapter = Adapter(employees: seq<Employee>, selected: set<Employee>)

  /** Whether a row is drawn as selected. */
  predicate IsSelected(a: Adapter, e: Employee)
  {
    e in a.selected
  }

  /** New rows replace the old ones and the highlight is dropped. */
  function UpdateEmployees(a: Adapter, newEmployees: seq<Employee>): (r: Adapter)
    ensures r.employees == newEmployees
    ensures forall e :: !IsSelected(r, e)
  {
    Adapter(newEmployees, {})
  }

  /** The number of rows the list view draws. */
  function ItemCount(a: Adapter): (n: nat)
  {
    |a.employees|
  }

  /** Flip one employee's highlight; every other employee keeps its state. */
  function Toggle(a: Adapter, e: Employee): (r: Adapter)
    ensures r.employees == a.employees
    ensures IsSelected(r, e) <==> !IsSelected(a, e)
    ensures forall x :: x != e ==> (IsSelected(r, x) <==> IsSelected(a, x))
  {
    if e in a.selected then a.(selected := a.selected - {e})
    else a.(selected := a.selected + {e})
  }

  /** Highlight exactly the shown rows. */
  function SelectAll(a: Adapter): (r: Adapter)
    ensures r.employees == a.employees
    ensures forall i :: 0 <= i < |a.employees| ==> IsSelected(r, a.employees[i])
    ensures forall x :: IsSelected(r, x) ==> x in a.employees
  {
    a.(selected := Elems(a.employees))
  }

  /** Drop the highlight, keep the rows. */
  function ClearSelection(a: Adapter): (r: Adapter)
    ensures r.employees == a.employees
    ensures forall x :: !IsSelected(r, x)
  {
    a.(selected := {})
  }

  /** After new rows arrive the view reports exactly them and highlights none. */
  lemma UpdateThenRead(a: Adapter, newEmployees: seq<Employee>)
    ensures UpdateEmployees(a, newEmployees).employees == newEmployees
    ensures ItemCount(UpdateEmployees(a, newEmployees)) == |newEmployees|
    ensures SelectAll(UpdateEmployees(a, newEmployees)).selected == Elems(newEmployees)
  {
  }

  /** Clicking the same row twice restores the highlight. */
  lemma ToggleTwice(a: Adapter, e: Employee)
    ensures Toggle(Toggle(a, e), e) == a
  {
    if e in a.selected {
      assert a.selected - {e} + {e} == a.selected;
    } else {
      assert a.selected + {e} - {e} == a.selected;
    }
  }

  /** Selecting all twice is selecting all once, and clearing forgets it. */
  lemma SelectAllIsIdempotent(a: Adapter)
    ensures SelectAll(SelectAll(a)) == SelectAll(a)
    ensures ClearSelection(SelectAll(a)) == ClearSelection(a)
  {
  }

  /** The fragment's state: whether the action mode is open, the list it will
      export, and the adapter it drives. */
  datatype Mode = Mode(active: bool, chosen: seq<Employee>, adapter: Adapter)

  /** The list and the highlight agree: the list has no repeats and holds
      exactly the highlighted employees. */
  predicate Synced(m: Mode)
  {
    NoDuplicates(m.chosen) && Elems(m.chosen) == m.adapter.selected
  }

  /** The fragment's toggle: remove from the list if present, else append;
      then toggle the adapter. */
  function ToggleSelection(m: Mode, e: Employee): (r: Mode)
    ensures r.active == m.active && r.adapter == Toggle(m.adapter, e)
    ensures e !in m.chosen ==> r.chosen == m.chosen + [e]
    ensures e in m.chosen ==> multiset(r.chosen) == multiset(m.chosen) - multiset{e}
  {
    var chosen := if e in m.chosen then RemoveFirst(m.chosen, e) else m.chosen + [e];
    Mode(m.active, chosen, Toggle(m.adapter, e))
  }

  /** Select-all copies the adapter's rows into the list. */
  function SelectAllEmployees(m: Mode): (r: Mode)
    ensures r.active == m.active
    ensures r.chosen == m.adapter.employees
    ensures r.adapter.employees == m.adapter.employees
    ensures r.adapter.selected == Elems(m.adapter.employees)
  {
    Mode(m.active, m.adapter.employees, SelectAll(m.adapter))
  }

  /** Opening the action mode (the export button or a long press). */
  function StartSelectionMode(m: Mode): (r: Mode)
    ensures r.active && r.chosen == m.chosen && r.adapter == m.adapter
  {
    m.(active := true)
  }

  /** Closing the action mode empties both the list and the highlight. */
  function EndSelectionMode(m: Mode): (r: Mode)
    ensures !r.active && r.chosen == []
    ensures r.adapter.employees == m.adapter.employees
    ensures forall x :: !IsSelected(r.adapter, x)
  {
    Mode(false, [], ClearSelection(m.adapter))
  }

  /** The observer of the employee list: the adapter gets the new rows, the
      fragment's list is left alone. */
  function ShowEmployees(m: Mode, newEmployees: seq<Employee>): (r: Mode)
    ensures r.active == m.active && r.chosen == m.chosen
    ensures r.adapter.employees == newEmployees && r.adapter.selected == {}
  {
    m.(adapter := UpdateEmployees(m.adapter, newEmployees))
  }

  /** The number to dial: the mobile number when there is one, otherwise the
      office number (which may itself be empty). */
  function DialNumber(e: Employee): (r: string)
    ensures r == e.mobilePhone || r == e.officePhone
    ensures e.mobilePhone != [] ==> r == e.mobilePhone
    ensures r != [] <==> e.mobilePhone != [] || e.officePhone != []
  {
    if e.mobilePhone != [] then e.mobilePhone else e.officePhone
  }

  /** What a tap on a row does: inside the action mode it toggles the row,
      outside it asks the dialler for the employee's number. */
  function Click(m: Mode, e: Employee): (r: (Mode, Option<string>))
    ensures m.active ==> r.0 == ToggleSelection(m, e) && r.1 == None
    ensures !m.active ==> r.0 == m && r.1 == Some(DialNumber(e))
  {
    if m.active then (ToggleSelection(m, e), None) else (m, Some(DialNumber(e)))
  }

  /** The long-press callback the fragment hands to the adapter: outside the
      action mode it opens the mode with the pressed row selected and reports
      the event consumed; inside the mode it does nothing. */
  function LongClick(m: Mode, e: Employee): (r: (Mode, bool))
    ensures m.active ==> r == (m, false)
    ensures !m.active ==> r.1 && r.0 == ToggleSelection(StartSelectionMode(m), e)
  {
    if m.active then (m, false) else (ToggleSelection(StartSelectionMode(m), e), true)
  }

  /** A long press as the adapter wires it: `onBindViewHolder` registers the
      tap listener only, so the long-press callback is never invoked and the
      fragment's state stays as it was. */
  function LongPressAsWritten(m: Mode, e: Employee): Mode
  {
    m
  }

  /** As wired, a long press outside the action mode leaves it closed with
      nothing newly selected, while the callback would have opened it with
      the pressed row's highlight flipped. */
  lemma LongPressIgnored(m: Mode, e: Employee)
    requires !m.active
    ensures !LongPressAsWritten(m, e).active
    ensures LongPressAsWritten(m, e).adapter.selected == m.adapter.selected
    ensures LongClick(m, e).0.active && LongClick(m, e).1
    ensures IsSelected(LongClick(m, e).0.adapter, e) <==> !IsSelected(m.adapter, e)
  {
  }

  /** With the callback wired, a long press on a closed mode (whose list and
      highlight the last close emptied) opens it with exactly the pressed
      employee selected, list and highlight in agreement. */
  lemma LongClickAfterEnd(m: Mode, e: Employee)
    ensures var r := LongClick(EndSelectionMode(m), e);
      r.1 && r.0.active && r.0.chosen == [e] && r.0.adapter.selected == {e} && Synced(r.0)
  {
  }

  /** The export menu item: nothing to export for an empty list (the user is
      told to select first), otherwise the list itself. */
  function ExportRequest(m: Mode): (r: Option<seq<Employee>>)
    ensures r.None? <==> m.chosen == []
    ensures r.Some? ==> r.value == m.chosen
  {
    if m.chosen == [] then None else Some(m.chosen)
  }

  const TITLE_PREFIX := "已选择 "
  const TITLE_SUFFIX := " 项"

  /** The action mode's title, "N selected": the count of the export list in
      decimal between the fixed prefix and suffix. */
  function SelectionTitle(m: Mode): (r: string)
    ensures |r| > |TITLE_PREFIX| + |TITLE_SUFFIX|
    ensures r[..|TITLE_PREFIX|] == TITLE_PREFIX && r[|r| - |TITLE_SUFFIX|..] == TITLE_SUFFIX
    ensures AllDigits(r[|TITLE_PREFIX|..|r| - |TITLE_SUFFIX|])
    ensures DigitsValue(r[|TITLE_PREFIX|..|r| - |TITLE_SUFFIX|]) == |m.chosen|
    ensures |r| - |TITLE_SUFFIX| - |TITLE_PREFIX| > 1 ==> r[|TITLE_PREFIX|] != '0'
  {
    var digits := NatToDecimal(|m.chosen|);
    var r := TITLE_PREFIX + digits + TITLE_SUFFIX;
    assert r[|TITLE_PREFIX|..|r| - |TITLE_SUFFIX|] == digits;
    assert r[..|TITLE_PREFIX|] == TITLE_PREFIX;
    assert r[|r| - |TITLE_SUFFIX|..] == TITLE_SUFFIX;
    r
  }

  /** Toggling keeps list and highlight in agreement. */
  lemma ToggleKeepsSync(m: Mode, e: Employee)
    requires Synced(m)
    ensures Synced(ToggleSelection(m, e))
  {
    var r := ToggleSelection(m, e);
    if e in m.chosen {
      RemoveFirstDistinct(m.chosen, e);
    } else {
      NoDuplicatesConcat(m.chosen, [e]);
      ElemsConcat(m.chosen, [e]);
    }
  }

  /** Select-all leaves them in agreement exactly when the rows have no
      repeated employee. */
  lemma SelectAllSync(m: Mode)
    ensures Synced(SelectAllEmployees(m)) <==> NoDuplicates(m.adapter.employees)
  {
  }

  /** Ending the mode always leaves them in agreement. */
  lemma EndKeepsSync(m: Mode)
    ensures Synced(EndSelectionMode(m))
  {
  }

  /** New rows arriving while employees are selected leave the export list
      holding employees that are no longer highlighted. */
  lemma ShowEmployeesBreaksSync(m: Mode, newEmployees: seq<Employee>)
    requires Synced(m)
    ensures Synced(ShowEmployees(m, newEmployees)) <==> m.chosen == []
  {
    ElemsEmpty(m.chosen);
  }

  /** While in agreement, the export list holds exactly the highlighted
      employees and the title counts them. */
  lemma ExportMatchesHighlight(m: Mode)
    requires Synced(m)
    ensures ExportRequest(m).Some? ==> Elems(ExportRequest(m).value) == m.adapter.selected
    ensures ExportRequest(m).None? <==> m.adapter.selected == {}
    ensures |m.chosen| == |m.adapter.selected|
  {
    ElemsEmpty(m.chosen);
    NoDuplicatesCard(m.chosen);
  }

  /** With a repeated row, select-all then one tap un-highlights the employee
      while one copy stays in the export list. */
  lemma RepeatedRowStaysExported(e: Employee)
    ensures var m := ToggleSelection(SelectAllEmployees(Mode(true, [], Adapter([e, e], {}))), e);
      m.chosen == [e] && !IsSelected(m.adapter, e)
  {
    var m0 := SelectAllEmployees(Mode(true, [], Adapter([e, e], {})));
    assert m0.chosen == [e, e];
    assert RemoveFirst([e, e], e) == [e];
  }

  /** Every contact the importers produce can be dialled. */
  lemma ImportedIsDialable(e: Employee)
    requires Imported(e)
    ensures DialNumber(e) != []
  {
  }
}

=== FILE: seqs.dfy ===
/** Generic facts about sequences used throughout the model: order-preserving
    filtering, subsequences, element sets and duplicate-freedom. Kotlin's
    `List.filter`, `List.map` and `contains` on lists are stated in these terms. */
module Seqs {

  /** The set of elements of a sequence. */
  function Elems<T>(s: seq<T>): set<T>
  {
    set x | x in s
  }

  /** `a` is obtained from `b` by deleting elements without reordering the rest
      (greedy matching, which is complete for this relation). */
  predicate IsSubsequence<T(==)>(a: seq<T>, b: seq<T>)
    decreases |b|
  {
    if a == [] then true
    else if b == [] then false
    else if a[0] == b[0] then IsSubsequence(a[1..], b[1..])
    else IsSubsequence(a, b[1..])
  }

  /** No element occurs twice. */
  predicate NoDuplicates<T(==)>(s: seq<T>)
  {
    forall i, j :: 0 <= i < j < |s| ==> s[i] != s[j]
  }

  /** Kotlin's `filter`: the elements satisfying `p`, in their original order. */
  function Filter<T(!new)>(s: seq<T>, p: T -> bool): (r: seq<T>)
    ensures |r| <= |s|
    ensures forall x :: x in r <==> x in s && p(x)
    ensures IsSubsequence(r, s)
  {
    if s == [] then []
    else
      var rest := Filter(s[1..], p);
      if p(s[0]) then
        [s[0]] + rest
      else
        assert rest != [] ==> rest[0] != s[0];
        rest
  }

  /** Filtering keeps each kept value as often as it occurs, and drops the rest. */
  lemma {:induction false} FilterMultiset<T(!new)>(s: seq<T>, p: T -> bool)
    ensures forall x :: multiset(Filter(s, p))[x] == if p(x) then multiset(s)[x] else 0
    decreases |s|
  {
    if s != [] {
      FilterMultiset(s[1..], p);
      assert s == [s[0]] + s[1..];
    }
  }

  /** Kotlin's `map`. */
  function Map<T, U>(s: seq<T>, f: T -> U): (r: seq<U>)
    ensures |r| == |s|
    ensures forall i :: 0 <= i < |s| ==> r[i] == f(s[i])
  {
    if s == [] then [] else [f(s[0])] + Map(s[1..], f)
  }

  lemma {:induction false} SubsequenceMembers<T>(a: seq<T>, b: seq<T>)
    requires IsSubsequence(a, b)
    ensures forall x :: x in a ==> x in b
    ensures |a| <= |b|
    decreases |b|
  {
    if a != [] && b != [] {
      if a[0] == b[0] {
        SubsequenceMembers(a[1..], b[1..]);
        assert a == [a[0]] + a[1..];
        assert b == [b[0]] + b[1..];
      } else {
        SubsequenceMembers(a, b[1..]);
        assert b == [b[0]] + b[1..];
      }
    }
  }

  lemma {:induction false} SubsequenceRefl<T>(a: seq<T>)
    ensures IsSubsequence(a, a)
    decreases |a|
  {
    if a != [] {
      SubsequenceRefl(a[1..]);
    }
  }

  /** Appending an element to the larger sequence keeps the relation. */
  lemma {:induction false} SubsequenceExtend<T>(a: seq<T>, b: seq<T>, x: T)
    requires IsSubsequence(a, b)
    ensures IsSubsequence(a, b + [x])
    decreases |b|
  {
    if a != [] {
      assert (b + [x])[0] == b[0];
      assert (b + [x])[1..] == b[1..] + [x];
      if a[0] == b[0] {
        SubsequenceExtend(a[1..], b[1..], x);
      } else {
        SubsequenceExtend(a, b[1..], x);
      }
    }
  }

  /** Appending the same element to both sides keeps the relation. */
  lemma {:induction false} SubsequenceAppendBoth<T>(a: seq<T>, b: seq<T>, x: T)
    requires IsSubsequence(a, b)
    ensures IsSubsequence(a + [x], b + [x])
    decreases |b|
  {
    if a == [] {
      if b == [] {
        assert IsSubsequence(([] + [x])[1..], ([] + [x])[1..]);
      } else {
        assert (b + [x])[1..] == b[1..] + [x];
        if b[0] == x {
          assert IsSubsequence(([x])[1..], (b + [x])[1..]);
        } else {
          SubsequenceAppendBoth(a, b[1..], x);
          assert a + [x] == [x];
        }
      }
    } else {
      assert b != [];
      assert (a + [x])[0] == a[0] && (a + [x])[1..] == a[1..] + [x];
      assert (b + [x])[0] == b[0] && (b + [x])[1..] == b[1..] + [x];
      if a[0] == b[0] {
        SubsequenceAppendBoth(a[1..], b[1..], x);
      } else {
        SubsequenceAppendBoth(a, b[1..], x);
      }
    }
  }

  lemma {:induction false} SubsequenceTrans<T>(a: seq<T>, b: seq<T>, c: seq<T>)
    requires IsSubsequence(a, b) && IsSubsequence(b, c)
    ensures IsSubsequence(a, c)
    decreases |c|
  {
    if a != [] {
      assert b != [] && c != [];
      if b[0] == c[0] {
        if a[0] == b[0] {
          SubsequenceTrans(a[1..], b[1..], c[1..]);
        } else {
          SubsequenceTrans(a, b[1..], c[1..]);
        }
      } else {
        SubsequenceTrans(a, b, c[1..]);
        if a[0] == c[0] {
          SubsequenceDropHead(a, c[1..]);
        }
      }
    }
  }

  /** Dropping the first element of the smaller sequence keeps the relation. */
  lemma {:induction false} SubsequenceDropHead<T>(a: seq<T>, b: seq<T>)
    requires a != [] && IsSubsequence(a, b)
    ensures IsSubsequence(a[1..], b)
    decreases |b|, 1
  {
    if a[0] == b[0] {
      SubsequenceCons(a[1..], b[1..], b[0]);
    } else {
      SubsequenceDropHead(a, b[1..]);
      SubsequenceCons(a[1..], b[1..], b[0]);
    }
    assert [b[0]] + b[1..] == b;
  }

  /** Putting an element in front of the larger sequence keeps the relation. */
  lemma {:induction false} SubsequenceCons<T>(a: seq<T>, b: seq<T>, x: T)
    requires IsSubsequence(a, b)
    ensures IsSubsequence(a, [x] + b)
    decreases |b|, 2
  {
    assert ([x] + b)[1..] == b;
    if a != [] && a[0] == x {
      SubsequenceDropHead(a, b);
    }
  }

  /** Filtering with a weaker predicate keeps at least the same elements, in order. */
  lemma {:induction false} FilterMonotone<T(!new)>(s: seq<T>, p: T -> bool, q: T -> bool)
    requires forall x :: x in s && p(x) ==> q(x)
    ensures IsSubsequence(Filter(s, p), Filter(s, q))
    ensures |Filter(s, p)| <= |Filter(s, q)|
    decreases |s|
  {
    if s != [] {
      assert forall x :: x in s[1..] ==> x in s;
      FilterMonotone(s[1..], p, q);
      var fp, fq := Filter(s[1..], p), Filter(s[1..], q);
      if p(s[0]) {
        assert Filter(s, p) == [s[0]] + fp && Filter(s, q) == [s[0]] + fq;
      } else if q(s[0]) {
        assert Filter(s, q) == [s[0]] + fq;
        assert fp != [] ==> fp[0] != s[0];
        SubsequenceMembers(fp, fq);
      }
      SubsequenceMembers(Filter(s, p), Filter(s, q));
    }
  }

  /** A filter that keeps everything is the identity. */
  lemma {:induction false} FilterAll<T(!new)>(s: seq<T>, p: T -> bool)
    requires forall x :: x in s ==> p(x)
    ensures Filter(s, p) == s
    decreases |s|
  {
    if s != [] {
      assert forall x :: x in s[1..] ==> x in s;
      FilterAll(s[1..], p);
      assert s == [s[0]] + s[1..];
    }
  }

  /** A filter that keeps nothing is empty. */
  lemma FilterNone<T(!new)>(s: seq<T>, p: T -> bool)
    requires forall x :: x in s ==> !p(x)
    ensures Filter(s, p) == []
  {
    if Filter(s, p) != [] {
      assert Filter(s, p)[0] in Filter(s, p);
    }
  }

  lemma {:induction false} FilterConcat<T(!new)>(a: seq<T>, b: seq<T>, p: T -> bool)
    ensures Filter(a + b, p) == Filter(a, p) + Filter(b, p)
    decreases |a|
  {
    if a != [] {
      assert (a + b)[0] == a[0];
      assert (a + b)[1..] == a[1..] + b;
      FilterConcat(a[1..], b, p);
    } else {
      assert a + b == b;
    }
  }

  lemma {:induction false} MapConcat<T, U>(a: seq<T>, b: seq<T>, f: T -> U)
    ensures Map(a + b, f) == Map(a, f) + Map(b, f)
  {
  }

  lemma ElemsConcat<T>(a: seq<T>, b: seq<T>)
    ensures Elems(a + b) == Elems(a) + Elems(b)
  {
  }

  lemma ElemsEmpty<T>(s: seq<T>)
    ensures Elems(s) == {} <==> s == []
  {
    if s != [] {
      assert s[0] in Elems(s);
    }
  }

  lemma NoDuplicatesConcat<T>(a: seq<T>, b: seq<T>)
    requires NoDuplicates(a) && NoDuplicates(b)
    requires forall x :: x in b ==> x !in a
    ensures NoDuplicates(a + b)
  {
    forall i, j | 0 <= i < j < |a + b| ensures (a + b)[i] != (a + b)[j] {
      if j < |a| {
        assert (a + b)[i] == a[i] && (a + b)[j] == a[j];
      } else if i >= |a| {
        assert (a + b)[i] == b[i - |a|] && (a + b)[j] == b[j - |a|];
      } else {
        assert (a + b)[j] == b[j - |a|] && (a + b)[i] == a[i];
        assert b[j - |a|] in b;
      }
    }
  }

  /** A duplicate-free sequence has as many elements as its element set. */
  lemma {:induction false} NoDuplicatesCard<T>(s: seq<T>)
    requires NoDuplicates(s)
    ensures |Elems(s)| == |s|
    decreases |s|
  {
    if s != [] {
      NoDuplicatesCard(s[1..]);
      assert s == [s[0]] + s[1..];
      assert Elems(s) == {s[0]} + Elems(s[1..]);
      assert s[0] !in Elems(s[1..]);
    }
  }

  /** Kotlin's `MutableList.remove`: drop the first occurrence of `e`, if any. */
  function RemoveFirst<T(==)>(s: seq<T>, e: T): (r: seq<T>)
    ensures e !in s ==> r == s
    ensures e in s ==> |r| == |s| - 1 && multiset(r) == multiset(s) - multiset{e}
  {
    if s == [] then []
    else if s[0] == e then
      assert s == [s[0]] + s[1..];
      s[1..]
    else
      var rest := RemoveFirst(s[1..], e);
      assert s == [s[0]] + s[1..];
      assert e in s ==> e in s[1..];
      [s[0]] + rest
  }

  /** The occurrence removed is the first: the result is the list with the
      earliest index `k` holding `e` cut out. */
  lemma {:induction false} RemoveFirstShape<T>(s: seq<T>, e: T) returns (k: nat)
    requires e in s
    ensures k < |s| && s[k] == e
    ensures forall i :: 0 <= i < k ==> s[i] != e
    ensures |RemoveFirst(s, e)| == |s| - 1
    ensures forall i :: 0 <= i < k ==> RemoveFirst(s, e)[i] == s[i]
    ensures forall i :: k <= i < |s| - 1 ==> RemoveFirst(s, e)[i] == s[i + 1]
  {
    var r := RemoveFirst(s, e);
    if s[0] == e {
      k := 0;
      assert r == s[1..];
      forall i | 0 <= i < |s| - 1 ensures r[i] == s[i + 1] {
        assert s[1..][i] == s[i + 1];
      }
    } else {
      var t := s[1..];
      assert e in t by {
        var j :| 0 <= j < |s| && s[j] == e;
        assert t[j - 1] == e;
      }
      var k' := RemoveFirstShape(t, e);
      k := k' + 1;
      var r' := RemoveFirst(t, e);
      assert r == [s[0]] + r';
      forall i | 0 <= i < k ensures s[i] != e {
        if i > 0 {
          assert s[i] == t[i - 1];
        }
      }
      ConsShift(s, r', k');
    }
  }

  /** Putting back the head in front of a shifted tail shifts the whole list. */
  lemma ConsShift<T>(s: seq<T>, r': seq<T>, k': nat)
    requires |s| >= 2 && |r'| == |s| - 2 && k' <= |r'|
    requires forall i :: 0 <= i < k' ==> r'[i] == s[1..][i]
    requires forall i :: k' <= i < |s| - 2 ==> r'[i] == s[1..][i + 1]
    ensures forall i :: 0 <= i < k' + 1 ==> ([s[0]] + r')[i] == s[i]
    ensures forall i :: k' + 1 <= i < |s| - 1 ==> ([s[0]] + r')[i] == s[i + 1]
  {
    forall i | 0 < i < |s| - 1
      ensures ([s[0]] + r')[i] == (if i < k' + 1 then s[i] else s[i + 1])
    {
      assert ([s[0]] + r')[i] == r'[i - 1];
      assert s[1..][i - 1] == s[i] && s[1..][i] == s[i + 1];
    }
  }

  /** On a duplicate-free list, removing `e` removes it altogether and keeps
      the rest duplicate-free. */
  lemma RemoveFirstDistinct<T>(s: seq<T>, e: T)
    requires NoDuplicates(s) && e in s
    ensures NoDuplicates(RemoveFirst(s, e))
    ensures Elems(RemoveFirst(s, e)) == Elems(s) - {e}
  {
    var k := RemoveFirstShape(s, e);
    var r := RemoveFirst(s, e);
    forall i, j | 0 <= i < j < |r| ensures r[i] != r[j] {
      assert r[i] == s[if i < k then i else i + 1];
      assert r[j] == s[if j < k then j else j + 1];
    }
    forall x | x in Elems(s) - {e} ensures x in Elems(r) {
      var j :| 0 <= j < |s| && s[j] == x;
      assert j != k;
      assert r[if j < k then j else j - 1] == x;
    }
    forall x | x in Elems(r) ensures x in Elems(s) - {e} {
      var i :| 0 <= i < |r| && r[i] == x;
      assert r[i] == s[if i < k then i else i + 1];
    }
  }
}

=== FILE: text.dfy ===
/** The string primitives of the Kotlin standard library that the directory
    relies on: case-insensitive `contains`, `isBlank`, `compareTo` (the order
    used by `sorted()` and `sortedBy`), `toInt()` and decimal formatting of
    integers in string templates. Case mapping is the ASCII one. */
module Text {
  import opened Optional

  // ---------------------------------------------------------------- case

  function UpperCase(c: char): char
  {
    if 'a' <= c <= 'z' then (c as int - 32) as char else c
  }

  function LowerCase(c: char): char
  {
    if 'A' <= c <= 'Z' then (c as int + 32) as char else c
  }

  /** `Char.equals(other, ignoreCase = true)`: equal, equal after upper-casing,
      or equal after upper- then lower-casing. */
  predicate EqualsIgnoreCase(a: char, b: char)
  {
    a == b
    || UpperCase(a) == UpperCase(b)
    || LowerCase(UpperCase(a)) == LowerCase(UpperCase(b))
  }

  /** `s.regionMatches(i, q, 0, q.length, ignoreCase = true)`. */
  predicate RegionMatchesIgnoreCase(s: string, i: nat, q: string)
    requires i + |q| <= |s|
  {
    forall k :: 0 <= k < |q| ==> EqualsIgnoreCase(s[i + k], q[k])
  }

  /** `s.contains(q, ignoreCase = true)`, which is `indexOf(q, 0, true) >= 0`:
      some window of `s` matches `q` character by character. */
  predicate ContainsIgnoreCase(s: string, q: string)
  {
    exists i :: 0 <= i && i + |q| <= |s| && RegionMatchesIgnoreCase(s, i, q)
  }

  /** Every string contains itself, so an exact match is always a substring match. */
  lemma ContainsItself(s: string)
    ensures ContainsIgnoreCase(s, s)
  {
    assert RegionMatchesIgnoreCase(s, 0, s);
  }

  /** Upper-casing the query never changes whether it matches. */
  lemma {:induction false} QueryCaseIrrelevant(s: string, q: string)
    ensures ContainsIgnoreCase(s, q) <==> ContainsIgnoreCase(s, UpperString(q))
  {
    var uq := UpperString(q);
    forall i | 0 <= i && i + |q| <= |s|
      ensures RegionMatchesIgnoreCase(s, i, q) <==> RegionMatchesIgnoreCase(s, i, uq)
    {
      forall k | 0 <= k < |q|
        ensures EqualsIgnoreCase(s[i + k], q[k]) <==> EqualsIgnoreCase(s[i + k], uq[k])
      {
        UpperCaseIdempotent(q[k]);
      }
    }
    if ContainsIgnoreCase(s, q) {
      var i :| 0 <= i && i + |q| <= |s| && RegionMatchesIgnoreCase(s, i, q);
      assert RegionMatchesIgnoreCase(s, i, uq);
    }
    if ContainsIgnoreCase(s, uq) {
      var i :| 0 <= i && i + |uq| <= |s| && RegionMatchesIgnoreCase(s, i, uq);
      assert RegionMatchesIgnoreCase(s, i, q);
    }
  }

  lemma UpperCaseIdempotent(c: char)
    ensures UpperCase(UpperCase(c)) == UpperCase(c)
  {
  }

  function UpperString(s: string): (r: string)
    ensures |r| == |s|
    ensures forall i :: 0 <= i < |s| ==> r[i] == UpperCase(s[i])
  {
    if s == [] then [] else [UpperCase(s[0])] + UpperString(s[1..])
  }

  // ---------------------------------------------------------------- blank

  /** `Char.isWhitespace()`: Java's `Character.isWhitespace` or `isSpaceChar`
      (the Unicode space, line and paragraph separators plus the ASCII
      control characters tab to carriage return and file to unit separator). */
  predicate IsWhitespace(c: char)
  {
    '\t' <= c <= '\r'
    || '\U{1C}' <= c <= '\U{20}'
    || c == '\U{A0}' || c == '\U{1680}'
    || '\U{2000}' <= c <= '\U{200A}'
    || c == '\U{2028}' || c == '\U{2029}' || c == '\U{202F}' || c == '\U{205F}'
    || c == '\U{3000}'
  }

  /** `CharSequence.isBlank()`: empty or whitespace only. */
  predicate IsBlank(s: string)
  {
    forall i :: 0 <= i < |s| ==> IsWhitespace(s[i])
  }

  // ---------------------------------------------------------------- order

  /** `a.compareTo(b) < 0`: the first differing character decides; otherwise
      the shorter string comes first. */
  predicate Less(a: string, b: string)
    decreases |a|
  {
    if a == [] then b != []
    else if b == [] then false
    else if a[0] != b[0] then a[0] < b[0]
    else Less(a[1..], b[1..])
  }

  lemma {:induction false} LessIrreflexive(a: string)
    ensures !Less(a, a)
    decreases |a|
  {
    if a != [] {
      LessIrreflexive(a[1..]);
    }
  }

  lemma {:induction false} LessTransitive(a: string, b: string, c: string)
    requires Less(a, b) && Less(b, c)
    ensures Less(a, c)
    decreases |a|
  {
    if a != [] && a[0] == b[0] && b[0] == c[0] {
      LessTransitive(a[1..], b[1..], c[1..]);
    }
  }

  lemma {:induction false} LessTotal(a: string, b: string)
    ensures a == b || Less(a, b) || Less(b, a)
    decreases |a|
  {
    if a != [] && b != [] && a[0] == b[0] {
      LessTotal(a[1..], b[1..]);
      if a[1..] == b[1..] {
        assert a == [a[0]] + a[1..] && b == [b[0]] + b[1..];
      }
    }
  }

  lemma {:induction false} LessAsymmetric(a: string, b: string)
    requires Less(a, b)
    ensures !Less(b, a)
    decreases |a|
  {
    if a != [] && a[0] == b[0] {
      LessAsymmetric(a[1..], b[1..]);
    }
  }

  // ---------------------------------------------------------------- integers

  const INT_MIN: int := -0x8000_0000
  const INT_MAX: int := 0x7fff_ffff

  predicate IsDigit(c: char)
  {
    '0' <= c <= '9'
  }

  predicate AllDigits(s: string)
  {
    forall i :: 0 <= i < |s| ==> IsDigit(s[i])
  }

  function DigitChar(d: nat): (c: char)
    requires d < 10
    ensures IsDigit(c)
  {
    ('0' as int + d) as char
  }

  /** The value of a run of decimal digits, most significant first. */
  function DigitsValue(s: string): nat
    requires AllDigits(s)
    decreases |s|
  {
    if s == [] then 0
    else DigitsValue(s[..|s| - 1]) * 10 + (s[|s| - 1] as int - '0' as int)
  }

  /** The decimal text of a natural number, as a Kotlin string template
      prints it: no sign, no leading zeros. */
  function NatToDecimal(n: nat): (r: string)
    ensures r != [] && AllDigits(r)
    ensures DigitsValue(r) == n
    ensures |r| > 1 ==> r[0] != '0'
    decreases n
  {
    if n < 10 then [DigitChar(n)]
    else
      var prefix := NatToDecimal(n / 10);
      var r := prefix + [DigitChar(n % 10)];
      assert r[..|r| - 1] == prefix;
      r
  }

  /** `String.toIntOrNull()` in radix 10: an optional sign followed by at
      least one digit, within the 32-bit range; `toInt()` throws exactly
      where this is `None`. */
  function ParseInt(s: string): (r: Option<int>)
    ensures r.Some? ==> INT_MIN <= r.value <= INT_MAX
    ensures r.Some? ==> s != [] && AllDigits(s[1..])
  {
    if s == [] then None
    else
      var start := if s[0] == '-' || s[0] == '+' then 1 else 0;
      var digits := s[start..];
      if digits == [] || !AllDigits(digits) then None
      else
        var magnitude: int := DigitsValue(digits);
        var v := if s[0] == '-' then -magnitude else magnitude;
        if INT_MIN <= v <= INT_MAX then Some(v) else None
  }

  /** Printing a non-negative `Int` and parsing it back yields it again. */
  lemma ParseFormatRoundTrip(n: nat)
    requires n <= INT_MAX
    ensures ParseInt(NatToDecimal(n)) == Some(n)
  {
    var r := NatToDecimal(n);
    assert r[0] != '-' && r[0] != '+' by { assert IsDigit(r[0]); }
    assert r[0..] == r;
  }

  /** A negative number prints with a leading minus and parses back. */
  lemma ParseNegativeRoundTrip(n: nat)
    requires 0 < n <= -INT_MIN
    ensures ParseInt("-" + NatToDecimal(n)) == Some(-(n as int))
  {
    var r := "-" + NatToDecimal(n);
    assert r[1..] == NatToDecimal(n);
  }
}

=== FILE: theme.dfy ===
/** `ThemeStyle`: the colour maps of the light and dark themes, the four
    font-size tables, and the current colours and text sizes that
    `applyTheme` and `applyFontSize` replace. The singleton's two mutable
    fields are a `Style` value threaded through the operations. */
module Theme {
  import opened Optional
  import opened Text

  type Table = map<string, string>

  /** The text roles every size table defines, largest first. */
  const TEXT_ROLES: seq<string> := ["header", "title", "subtitle", "body", "caption"]

  const LIGHT: Table := map[
    "name" := "浅色主题",
    "primary" := "#2196F3",
    "primary_dark" := "#1976D2",
    "accent" := "#FF5722",
    "background" := "#FFFFFF",
    "card_background" := "#F5F5F5",
    "text_primary" := "#212121",
    "text_secondary" := "#757575",
    "divider" := "#BDBDBD"]

  const DARK: Table := map[
    "name" := "深色主题",
    "primary" := "#2196F3",
    "primary_dark" := "#1976D2",
    "accent" := "#FF5722",
    "background" := "#121212",
    "card_background" := "#1E1E1E",
    "text_primary" := "#FFFFFF",
    "text_secondary" := "#B0B0B0",
    "divider" := "#424242"]

  const THEMES: map<string, Table> := map["light" := LIGHT, "dark" := DARK]

  /** The keys of every colour map. */
  const COLOR_KEYS: set<string> := {"name", "primary", "primary_dark", "accent",
    "background", "card_background", "text_primary", "text_secondary", "divider"}

  const SMALL_SIZES: Table := map[
    "header" := "20sp", "title" := "18sp", "subtitle" := "16sp", "body" := "14sp", "caption" := "12sp"]
  const MEDIUM_SIZES: Table := map[
    "header" := "24sp", "title" := "20sp", "subtitle" := "18sp", "body" := "16sp", "caption" := "14sp"]
  const LARGE_SIZES: Table := map[
    "header" := "28sp", "title" := "24sp", "subtitle" := "20sp", "body" := "18sp", "caption" := "16sp"]
  const EXTRA_LARGE_SIZES: Table := map[
    "header" := "32sp", "title" := "28sp", "subtitle" := "24sp", "body" := "20sp", "caption" := "18sp"]

  /** The sizes the object starts with, written out separately in the source. */
  const INITIAL_TEXT_SIZES: Table := map[
    "header" := "24sp", "title" := "20sp", "subtitle" := "18sp", "body" := "16sp", "caption" := "14sp"]

  /** What `getTextSize` answers for a role the table does not define. */
  const DEFAULT_TEXT_SIZE := "16sp"

  /** The two mutable fields of the object. */
  datatype Style = Style(colors: Table, textSizes: Table)

  /** The state at start-up: light colours and the initial sizes. */
  const INITIAL_STYLE := Style(LIGHT, INITIAL_TEXT_SIZES)

  datatype FontSize = Small | Medium | Large | ExtraLarge

  /** The `when` over the setting's text: unknown names mean medium. */
  function FontSizeOf(name: string): (f: FontSize)
    ensures f == Small <==> name == "small"
    ensures f == Large <==> name == "large"
    ensures f == ExtraLarge <==> name == "extra_large"
  {
    if name == "small" then Small
    else if name == "large" then Large
    else if name == "extra_large" then ExtraLarge
    else Medium
  }

  function SizesFor(f: FontSize): Table
  {
    match f
    case Small => SMALL_SIZES
    case Medium => MEDIUM_SIZES
    case Large => LARGE_SIZES
    case ExtraLarge => EXTRA_LARGE_SIZES
  }

  /** The numeric part of a size such as "16sp", when it has that shape. */
  function SpValue(size: string): (r: Option<nat>)
    ensures r.Some? ==> |size| > 2 && size[|size| - 2..] == "sp"
  {
    if |size| > 2 && size[|size| - 2..] == "sp" && AllDigits(size[..|size| - 2])
    then Some(DigitsValue(size[..|size| - 2]))
    else None
  }

  /** Clear the sizes and copy in the chosen table; the colours stay. */
  function ApplyFontSize(st: Style, fontSize: string): (r: Style)
    ensures r.colors == st.colors
    ensures r.textSizes.Keys == set role | role in TEXT_ROLES
    ensures fontSize == "small" ==> r.textSizes == SMALL_SIZES
    ensures fontSize == "large" ==> r.textSizes == LARGE_SIZES
    ensures fontSize == "extra_large" ==> r.textSizes == EXTRA_LARGE_SIZES
    ensures fontSize !in {"small", "large", "extra_large"} ==> r.textSizes == MEDIUM_SIZES
  {
    st.(textSizes := SizesFor(FontSizeOf(fontSize)))
  }

  /** The stored size for a role, "16sp" when the role is unknown. */
  function GetTextSize(st: Style, textType: string): (r: string)
    ensures textType in st.textSizes ==> r == st.textSizes[textType]
    ensures textType !in st.textSizes ==> r == DEFAULT_TEXT_SIZE
  {
    if textType in st.textSizes then st.textSizes[textType] else DEFAULT_TEXT_SIZE
  }

  /** A known theme name replaces the colours, an unknown one leaves them;
      either way the current colours are returned and the sizes stay. */
  function ApplyTheme(st: Style, themeName: string): (r: (Style, Table))
    ensures r.0.textSizes == st.textSizes
    ensures themeName in THEMES ==> r.0.colors == THEMES[themeName]
    ensures themeName !in THEMES ==> r.0 == st
    ensures r.1 == r.0.colors
  {
    var st' := if themeName in THEMES then st.(colors := THEMES[themeName]) else st;
    (st', st'.colors)
  }

  /** The object starts with the medium table and the light theme. */
  lemma InitialIsMediumLight()
    ensures INITIAL_STYLE.textSizes == SizesFor(FontSizeOf("medium"))
    ensures INITIAL_STYLE.colors == THEMES["light"]
  {
  }

  /** Both themes define the same nine colour keys. */
  lemma ThemesDefineSameKeys()
    ensures forall name :: name in THEMES ==> THEMES[name].Keys == COLOR_KEYS
  {
  }

  /** Setting the same font size again changes nothing, and only the last
      setting counts. */
  lemma ApplyFontSizeIdempotent(st: Style, f: string, g: string)
    ensures ApplyFontSize(ApplyFontSize(st, f), f) == ApplyFontSize(st, f)
    ensures ApplyFontSize(ApplyFontSize(st, f), g) == ApplyFontSize(st, g)
  {
  }

  /** After any font-size setting every role has a size, and an unknown role
      gets the medium body size. */
  lemma TextSizeAfterApply(st: Style, fontSize: string, textType: string)
    ensures textType in TEXT_ROLES ==>
      GetTextSize(ApplyFontSize(st, fontSize), textType) == SizesFor(FontSizeOf(fontSize))[textType]
    ensures textType !in TEXT_ROLES ==>
      GetTextSize(ApplyFontSize(st, fontSize), textType) == MEDIUM_SIZES["body"]
  {
  }

  /** Setting a theme twice is setting it once. */
  lemma ApplyThemeIdempotent(st: Style, themeName: string)
    ensures ApplyTheme(ApplyTheme(st, themeName).0, themeName) == ApplyTheme(st, themeName)
  {
  }

  /** Two-digit "NNsp" sizes read back as their number. */
  lemma SpTwoDigits(size: string)
    requires |size| == 4 && size[2..] == "sp" && IsDigit(size[0]) && IsDigit(size[1])
    ensures SpValue(size) == Some((size[0] as int - '0' as int) * 10 + (size[1] as int - '0' as int))
  {
    var digits := size[..2];
    assert size[|size| - 2..] == size[2..];
    assert AllDigits(digits);
    assert digits[..1] == [size[0]];
    assert [size[0]][..0] == [];
    assert DigitsValue([size[0]]) == size[0] as int - '0' as int;
    assert DigitsValue(digits) == DigitsValue(digits[..1]) * 10 + (digits[1] as int - '0' as int);
  }

  /** The numeric value of a table's size for a role. */
  function SizeOf(f: FontSize, role: string): (r: nat)
    requires role in TEXT_ROLES
  {
    var size := SizesFor(f)[role];
    match SpValue(size)
    case Some(n) => n
    case None => 0
  }

  /** The numbers written in each table, role by role in `TEXT_ROLES` order. */
  function ValuesFor(f: FontSize): (r: seq<nat>)
    ensures |r| == |TEXT_ROLES|
  {
    match f
    case Small => [20, 18, 16, 14, 12]
    case Medium => [24, 20, 18, 16, 14]
    case Large => [28, 24, 20, 18, 16]
    case ExtraLarge => [32, 28, 24, 20, 18]
  }

  /** Each size text reads back as the number listed for it. */
  lemma SizeAt(f: FontSize, i: nat)
    requires i < |TEXT_ROLES|
    ensures SizeOf(f, TEXT_ROLES[i]) == ValuesFor(f)[i]
  {
    var size := SizesFor(f)[TEXT_ROLES[i]];
    assert |size| == 4 && size[2..] == "sp" && IsDigit(size[0]) && IsDigit(size[1]) by {
      match f
      case Small =>
      case Medium =>
      case Large =>
      case ExtraLarge =>
    }
    SpTwoDigits(size);
  }

  /** Within every table the sizes shrink from header to caption. */
  lemma SizesShrinkByRole(f: FontSize, i: nat)
    requires i + 1 < |TEXT_ROLES|
    ensures SizeOf(f, TEXT_ROLES[i]) > SizeOf(f, TEXT_ROLES[i + 1])
  {
    SizeAt(f, i);
    SizeAt(f, i + 1);
  }

  /** For every role the sizes grow from small to extra large. */
  lemma SizesGrowByTable(role: string)
    requires role in TEXT_ROLES
    ensures SizeOf(Small, role) < SizeOf(Medium, role) < SizeOf(Large, role) < SizeOf(ExtraLarge, role)
  {
    var i :| 0 <= i < |TEXT_ROLES| && TEXT_ROLES[i] == role;
    SizeAt(Small, i);
    SizeAt(Medium, i);
    SizeAt(Large, i);
    SizeAt(ExtraLarge, i);
  }
}

=== FILE: view_models.dfy ===
/** The view models that sit on top of the record store: the home screen
    (`HomeViewModel`, plus the import run by `MainActivity`), the department
    and position summaries, and the two detail screens.

    Each view model owns its own `EmployeeDataManager`. LiveData values are
    modelled as the value last published: `None` before the first one. The
    `isLoading` flag is only raised and lowered around each call and is left
    out. */
module ViewModels {
  import opened Optional
  import opened Seqs
  import opened Text
  import opened Model
  import opened RecordStore
  import opened Ordering
  import opened Aggregation

  /** A view model's state: its store, what it last published, and its error
      text (`None` is `null`). */
  datatype Screen<T> = Screen(store: Store, shown: Option<T>, errorMessage: Option<string>)

  const LOAD_EMPLOYEES_FAILED: string := "加载员工数据失败"
  const LOAD_DEPARTMENTS_FAILED: string := "加载科室数据失败"
  const LOAD_POSITIONS_FAILED: string := "加载职位数据失败"

  /** The text every `catch (e: Exception)` of a `load*` publishes; the
      exception's message comes from the JSON parser and is a parameter. */
  function ErrorText(message: string): string
  {
    "发生错误: " + message
  }

  /** The seed reads and parses completely, so `loadEmployeesFromJson` returns true. */
  predicate SeedParses(seed: ReadResult)
  {
    seed.Content? && ParseDoc(seed.doc).Some?
  }

  /** The shape every `load*` shares: load the seed; on success publish
      `view` of the merged list and clear the error; on `false` publish the
      screen's failure text; on a parse exception publish `ErrorText`. */
  function Load<T>(s: Screen<T>, seed: ReadResult, exceptionMessage: string, failure: string,
                   view: seq<Employee> -> T): (r: Screen<T>)
    ensures r.store == LoadEmployeesFromJson(s.store, seed).store
    ensures r.errorMessage.None? <==> SeedParses(seed)
    ensures SeedParses(seed) ==> r.shown == Some(view(r.store.employees))
    ensures !SeedParses(seed) ==> r.shown == s.shown && r.store == s.store
    ensures seed.IoFailure? ==> r.errorMessage == Some(failure)
    ensures seed.Content? && !SeedParses(seed) ==> r.errorMessage == Some(ErrorText(exceptionMessage))
  {
    var loaded := LoadEmployeesFromJson(s.store, seed);
    match loaded.outcome
    case Loaded => Screen(loaded.store, Some(view(loaded.store.employees)), None)
    case ReadFailed => s.(errorMessage := Some(failure))
    case ParseFailed => s.(errorMessage := Some(ErrorText(exceptionMessage)))
  }

  // ---------------------------------------------------------------- home

  type Home = Screen<seq<Employee>>

  /** `HomeViewModel.loadEmployees`. */
  function LoadEmployees(h: Home, seed: ReadResult, exceptionMessage: string): (r: Home)
    ensures r.errorMessage.None? <==> SeedParses(seed)
    ensures SeedParses(seed) ==> (r.shown == Some(GetAllEmployees(r.store)) &&
      r.store.employees == MergeSeed(ParseDoc(seed.doc).value, h.store.employees))
    ensures !SeedParses(seed) ==> r.shown == h.shown && r.store == h.store
    ensures seed.IoFailure? ==> r.errorMessage == Some(LOAD_EMPLOYEES_FAILED)
    ensures seed.Content? && !SeedParses(seed) ==> r.errorMessage == Some(ErrorText(exceptionMessage))
  {
    Load(h, seed, exceptionMessage, LOAD_EMPLOYEES_FAILED, (list: seq<Employee>) => list)
  }

  /** Loading the same seed twice is the same as loading it once. */
  lemma LoadEmployeesTwice(h: Home, seed: ReadResult, exceptionMessage: string)
    ensures LoadEmployees(LoadEmployees(h, seed, exceptionMessage), seed, exceptionMessage)
      == LoadEmployees(h, seed, exceptionMessage)
  {
    if SeedParses(seed) {
      MergeSeedIdempotent(ParseDoc(seed.doc).value, h.store.employees);
    }
  }

  /** `HomeViewModel.searchEmployees`: the whole list for an empty query,
      otherwise the name-or-department search. The store and the error are
      untouched. */
  function SearchEmployees(h: Home, query: string): (r: Home)
    ensures r.store == h.store && r.errorMessage == h.errorMessage
    ensures r.shown.Some? && IsSubsequence(r.shown.value, h.store.employees)
    ensures query == [] ==> r.shown.value == h.store.employees
    ensures forall e :: e in r.shown.value <==> (e in h.store.employees &&
      (query == [] || ContainsIgnoreCase(e.name, query) || ContainsIgnoreCase(e.department, query)))
    ensures forall e :: (multiset(r.shown.value)[e] ==
      if query == [] || ContainsIgnoreCase(e.name, query) || ContainsIgnoreCase(e.department, query)
      then multiset(h.store.employees)[e] else 0)
  {
    var results := if query == [] then GetAllEmployees(h.store) else Search(h.store, query);
    SubsequenceRefl(h.store.employees);
    h.(shown := Some(results))
  }

  /** `HomeViewModel.updateEmployeeList`: replace and save the list, then publish it. */
  function UpdateEmployeeList(h: Home, newList: seq<Employee>, writeOk: bool): (r: Home)
    ensures r.shown == Some(newList) && GetAllEmployees(r.store) == newList
    ensures writeOk ==> NewStore(r.store.file).employees == newList
    ensures !writeOk ==> r.store.file == h.store.file
    ensures r.errorMessage == h.errorMessage
  {
    h.(store := RecordStore.UpdateEmployeeList(h.store, newList, writeOk), shown := Some(newList))
  }

  /** The dedupe-append both import paths perform: the imported records whose
      name is not a current name, appended after the current list. */
  function MergeImported(current: seq<Employee>, imported: seq<Employee>): (r: seq<Employee>)
    ensures |current| <= |r| && r[..|current|] == current
    ensures IsSubsequence(r[|current|..], imported)
    ensures forall e :: e in r[|current|..] <==> e in imported && e.name !in Names(current)
    ensures forall e :: multiset(r[|current|..])[e] == if e.name in Names(current) then 0 else multiset(imported)[e]
  {
    FilterMultiset(imported, NameNotIn(Names(current)));
    var r := current + Filter(imported, NameNotIn(Names(current)));
    assert r[..|current|] == current;
    assert r[|current|..] == Filter(imported, NameNotIn(Names(current)));
    r
  }

  /** After a merge every imported record's name is present. */
  lemma MergedHasImportedNames(current: seq<Employee>, imported: seq<Employee>)
    ensures forall e :: e in imported ==> e.name in Names(MergeImported(current, imported))
  {
    var merged := MergeImported(current, imported);
    var added := Filter(imported, NameNotIn(Names(current)));
    assert merged == current + added;
    forall e | e in imported ensures e.name in Names(merged) {
      if e.name !in Names(current) {
        var k :| 0 <= k < |added| && added[k] == e;
        assert merged[|current| + k] == e;
        assert Names(merged)[|current| + k] == e.name;
      } else {
        var k :| 0 <= k < |current| && Names(current)[k] == e.name;
        assert Names(merged)[k] == e.name;
      }
    }
  }

  /** Importing the same records again adds nothing. */
  lemma MergeImportedIdempotent(current: seq<Employee>, imported: seq<Employee>)
    ensures MergeImported(MergeImported(current, imported), imported) == MergeImported(current, imported)
  {
    var merged := MergeImported(current, imported);
    MergedHasImportedNames(current, imported);
    assert forall e :: e in imported ==> !NameNotIn(Names(merged))(e);
    FilterNone(imported, NameNotIn(Names(merged)));
    assert merged + [] == merged;
  }

  /** The dedupe is only against the current names: two imported records
      that share a new name are both appended. */
  lemma ImportedDuplicatesKept(current: seq<Employee>, a: Employee, b: Employee)
    requires a.name == b.name && a.name !in Names(current)
    ensures MergeImported(current, [a, b]) == current + [a, b]
  {
    assert [a, b] == [a] + [b];
    FilterConcat([a], [b], NameNotIn(Names(current)));
  }

  /** What an import reports: the new state and the number of records added. */
  datatype ImportOutcome = ImportOutcome(home: Home, added: nat)

  /** `HomeViewModel.importLocalContacts`: nothing happens for an empty
      import; otherwise the merged list is saved and published (even when no
      record was new), the error is cleared, and the number of new records
      is returned. */
  function ImportLocalContacts(h: Home, imported: seq<Employee>, writeOk: bool): (r: ImportOutcome)
    ensures imported == [] ==> r == ImportOutcome(h, 0)
    ensures imported != [] ==>
      r.home.store.employees == MergeImported(h.store.employees, imported) &&
      r.home.shown == Some(r.home.store.employees) &&
      r.home.errorMessage.None? &&
      (writeOk ==> NewStore(r.home.store.file).employees == r.home.store.employees)
    ensures r.added == |r.home.store.employees| - |h.store.employees|
  {
    if imported == [] then ImportOutcome(h, 0)
    else
      var current := GetAllEmployees(h.store);
      var added := Filter(imported, NameNotIn(Names(current)));
      var updated := UpdateEmployeeList(h, current + added, writeOk);
      ImportOutcome(updated.(errorMessage := None), |added|)
  }

  /** The synthetic contact `importContactsDirectly` adds to every import;
      `millis` is the clock reading. */
  function TestContact(millis: nat): (e: Employee)
    ensures e.mobilePhone != [] && e.officePhone != []
  {
    Employee("测试联系人-" + NatToDecimal(millis), "测试部门", "测试职位", "010-12345678", "13800138000")
  }

  /** Contacts made at different times have different names, so they never
      dedupe against each other. */
  lemma TestContactNamesDistinct(m1: nat, m2: nat)
    requires m1 != m2
    ensures TestContact(m1).name != TestContact(m2).name
  {
    var prefix := "测试联系人-";
    var n1 := TestContact(m1).name;
    var n2 := TestContact(m2).name;
    assert n1[|prefix|..] == NatToDecimal(m1);
    assert n2[|prefix|..] == NatToDecimal(m2);
  }

  /** `MainActivity.importContactsDirectly`: the read contacts plus one test
      contact are merged; the list is saved and published only when some
      record is new. */
  function ImportContactsDirectly(h: Home, imported: seq<Employee>, millis: nat, writeOk: bool): (r: ImportOutcome)
    ensures r.home.store.employees == MergeImported(h.store.employees, imported + [TestContact(millis)])
    ensures r.added == |r.home.store.employees| - |h.store.employees|
    ensures r.added == 0 ==> r.home == h
    ensures r.added > 0 ==> (r.home.shown == Some(r.home.store.employees) &&
      (writeOk ==> NewStore(r.home.store.file).employees == r.home.store.employees))
    ensures TestContact(millis).name !in Names(h.store.employees) ==> r.added > 0
  {
    var all := imported + [TestContact(millis)];
    var current := GetAllEmployees(h.store);
    var added := Filter(all, NameNotIn(Names(current)));
    assert TestContact(millis) in all;
    if added != [] then
      ImportOutcome(UpdateEmployeeList(h, current + added, writeOk), |added|)
    else
      assert current + added == current;
      ImportOutcome(h, 0)
  }

  /** Both import paths leave the same list and report the same count when
      given the same records (the activity's test contact included). */
  lemma ImportPathsAgree(h: Home, imported: seq<Employee>, millis: nat, writeOk: bool)
    ensures ImportContactsDirectly(h, imported, millis, writeOk).home.store.employees
      == ImportLocalContacts(h, imported + [TestContact(millis)], writeOk).home.store.employees
    ensures ImportContactsDirectly(h, imported, millis, writeOk).added
      == ImportLocalContacts(h, imported + [TestContact(millis)], writeOk).added
  {
  }

  // ---------------------------------------------------------------- summaries

  type Summary = Screen<seq<Group>>

  /** `DepartmentsViewModel.loadDepartments`. */
  function LoadDepartments(s: Summary, seed: ReadResult, exceptionMessage: string): (r: Summary)
    ensures r.store == LoadEmployeesFromJson(s.store, seed).store
    ensures r.errorMessage.None? <==> SeedParses(seed)
    ensures SeedParses(seed) ==> r.shown == Some(GroupCounts(r.store.employees, DepartmentField))
    ensures !SeedParses(seed) ==> r.shown == s.shown && r.store == s.store
    ensures seed.IoFailure? ==> r.errorMessage == Some(LOAD_DEPARTMENTS_FAILED)
    ensures seed.Content? && !SeedParses(seed) ==> r.errorMessage == Some(ErrorText(exceptionMessage))
  {
    Load(s, seed, exceptionMessage, LOAD_DEPARTMENTS_FAILED,
      (list: seq<Employee>) => GroupCounts(list, DepartmentField))
  }

  /** `PositionsViewModel.loadPositions`. */
  function LoadPositions(s: Summary, seed: ReadResult, exceptionMessage: string): (r: Summary)
    ensures r.store == LoadEmployeesFromJson(s.store, seed).store
    ensures r.errorMessage.None? <==> SeedParses(seed)
    ensures SeedParses(seed) ==> r.shown == Some(GroupCounts(r.store.employees, PositionField))
    ensures !SeedParses(seed) ==> r.shown == s.shown && r.store == s.store
    ensures seed.IoFailure? ==> r.errorMessage == Some(LOAD_POSITIONS_FAILED)
    ensures seed.Content? && !SeedParses(seed) ==> r.errorMessage == Some(ErrorText(exceptionMessage))
  {
    Load(s, seed, exceptionMessage, LOAD_POSITIONS_FAILED,
      (list: seq<Employee>) => GroupCounts(list, PositionField))
  }

  /** `getEmployeesByDepartment`: the substring lookup the summary links to. */
  function GetEmployeesByDepartment(s: Summary, departmentName: string): (r: seq<Employee>)
    ensures IsSubsequence(r, s.store.employees)
    ensures forall e :: e in r <==> e in s.store.employees && ContainsIgnoreCase(e.department, departmentName)
    ensures forall e :: (multiset(r)[e] ==
      if ContainsIgnoreCase(e.department, departmentName) then multiset(s.store.employees)[e] else 0)
  {
    SearchByDepartment(s.store, departmentName)
  }

  /** `getEmployeesByPosition`. */
  function GetEmployeesByPosition(s: Summary, positionName: string): (r: seq<Employee>)
    ensures IsSubsequence(r, s.store.employees)
    ensures forall e :: e in r <==> e in s.store.employees && ContainsIgnoreCase(e.position, positionName)
    ensures forall e :: (multiset(r)[e] ==
      if ContainsIgnoreCase(e.position, positionName) then multiset(s.store.employees)[e] else 0)
  {
    SearchByPosition(s.store, positionName)
  }

  /** After a successful load, the published departments are sorted by
      name, add up to the number of employees, and each count is at most the
      size of that department's lookup. */
  lemma LoadedDepartments(s: Summary, seed: ReadResult, exceptionMessage: string)
    requires SeedParses(seed)
    ensures var r := LoadDepartments(s, seed, exceptionMessage);
      StrictlyAscending(GroupNames(r.shown.value)) &&
      SumCounts(r.shown.value) == |r.store.employees| &&
      forall g :: g in r.shown.value ==> 1 <= g.employeeCount <= |GetEmployeesByDepartment(r, g.name)|
  {
    var r := LoadDepartments(s, seed, exceptionMessage);
    GroupsSortedAndComplete(r.store.employees, DepartmentField);
    GroupCountsSum(r.store.employees, DepartmentField);
    forall g | g in r.shown.value ensures 1 <= g.employeeCount <= |GetEmployeesByDepartment(r, g.name)| {
      var i :| 0 <= i < |r.shown.value| && r.shown.value[i] == g;
      CountAtMostLookup(r.store.employees, DepartmentField, i);
    }
  }

  /** The same three facts for the published positions. */
  lemma LoadedPositions(s: Summary, seed: ReadResult, exceptionMessage: string)
    requires SeedParses(seed)
    ensures var r := LoadPositions(s, seed, exceptionMessage);
      StrictlyAscending(GroupNames(r.shown.value)) &&
      SumCounts(r.shown.value) == |r.store.employees| &&
      forall g :: g in r.shown.value ==> 1 <= g.employeeCount <= |GetEmployeesByPosition(r, g.name)|
  {
    var r := LoadPositions(s, seed, exceptionMessage);
    GroupsSortedAndComplete(r.store.employees, PositionField);
    GroupCountsSum(r.store.employees, PositionField);
    forall g | g in r.shown.value ensures 1 <= g.employeeCount <= |GetEmployeesByPosition(r, g.name)| {
      var i :| 0 <= i < |r.shown.value| && r.shown.value[i] == g;
      CountAtMostLookup(r.store.employees, PositionField, i);
    }
  }

  // ---------------------------------------------------------------- detail screens

  /** `loadEmployeesByDepartment` / `loadEmployeesByPosition`: on success
      publish the lookup of `name` on field `f`. */
  function LoadEmployeesBy(s: Home, f: Field, name: string, seed: ReadResult, exceptionMessage: string): (r: Home)
    ensures r.store == LoadEmployeesFromJson(s.store, seed).store
    ensures r.errorMessage.None? <==> SeedParses(seed)
    ensures SeedParses(seed) ==> r.shown == Some(SearchByField(r.store.employees, f, name))
    ensures !SeedParses(seed) ==> r.shown == s.shown && r.store == s.store
    ensures seed.IoFailure? ==> r.errorMessage == Some(LOAD_EMPLOYEES_FAILED)
    ensures seed.Content? && !SeedParses(seed) ==> r.errorMessage == Some(ErrorText(exceptionMessage))
  {
    Load(s, seed, exceptionMessage, LOAD_EMPLOYEES_FAILED,
      (list: seq<Employee>) => SearchByField(list, f, name))
  }

  /** `searchEmployeesInDepartment` / `searchEmployeesInPosition`: the
      lookup of `name` on field `f`, narrowed to the names containing the
      query when it is not empty. */
  function SearchEmployeesIn(s: Home, f: Field, name: string, query: string): (r: Home)
    ensures r.store == s.store && r.errorMessage == s.errorMessage
    ensures r.shown.Some? && IsSubsequence(r.shown.value, SearchByField(s.store.employees, f, name))
    ensures query == [] ==> r.shown.value == SearchByField(s.store.employees, f, name)
    ensures query != [] ==> forall e :: e in r.shown.value <==>
      e in SearchByField(s.store.employees, f, name) && ContainsIgnoreCase(e.name, query)
    ensures forall e :: (multiset(r.shown.value)[e] ==
      if query == [] || ContainsIgnoreCase(e.name, query)
      then multiset(SearchByField(s.store.employees, f, name))[e] else 0)
  {
    var inGroup := SearchByField(s.store.employees, f, name);
    SubsequenceRefl(inGroup);
    FilterMultiset(inGroup, FieldContains(NameField, query));
    var results := if query == [] then inGroup else Filter(inGroup, FieldContains(NameField, query));
    s.(shown := Some(results))
  }

  /** Narrowing within a group finds exactly the group members that the
      name search over the whole store finds. */
  lemma SearchInGroupIsIntersection(s: Home, f: Field, name: string, query: string)
    ensures forall e :: e in SearchEmployeesIn(s, f, name, query).shown.value <==>
      e in SearchByField(s.store.employees, f, name) && e in SearchByName(s.store, query)
  {
  }

  // ---------------------------------------------------------------- navigation

  /** The argument bundle a summary screen hands to its detail screen. */
  type Arguments = map<string, string>

  /** `arguments?.getString(key) ?: ""`. */
  function ArgumentOrEmpty(args: Arguments, key: string): (r: string)
    ensures key in args ==> r == args[key]
    ensures key !in args ==> r == []
  {
    if key in args then args[key] else []
  }

  /** What `DepartmentsFragment` sends and `DepartmentDetailFragment` reads. */
  const DEPARTMENT_KEY: string := "departmentName"

  function DepartmentArguments(departmentName: string): Arguments
  {
    map[DEPARTMENT_KEY := departmentName]
  }

  /** The department detail screen receives the department that was tapped. */
  lemma DepartmentArgumentRoundTrip(departmentName: string)
    ensures ArgumentOrEmpty(DepartmentArguments(departmentName), DEPARTMENT_KEY) == departmentName
  {
  }

  /** The key `PositionDetailFragment` reads. */
  const POSITION_KEY: string := "positionName"

  /** `PositionsFragment` as written: the name is stored under "position_name". */
  function PositionArgumentsAsWritten(positionName: string): Arguments
  {
    map["position_name" := positionName]
  }

  /** As written, the detail screen reads an empty position name and, once
      loaded, lists every employee whatever position was tapped. */
  lemma PositionArgumentLost(positionName: string, s: Home, seed: ReadResult, exceptionMessage: string)
    requires SeedParses(seed)
    ensures ArgumentOrEmpty(PositionArgumentsAsWritten(positionName), POSITION_KEY) == []
    ensures var name := ArgumentOrEmpty(PositionArgumentsAsWritten(positionName), POSITION_KEY);
      var r := LoadEmployeesBy(s, PositionField, name, seed, exceptionMessage);
      r.shown == Some(r.store.employees)
  {
    assert "position_name" != POSITION_KEY by { assert "position_name"[8] != POSITION_KEY[8]; }
  }

  /** The position bundle with the key the detail screen reads, as the
      department screens already do. */
  function PositionArguments(positionName: string): Arguments
  {
    map[POSITION_KEY := positionName]
  }

  /** With the matching key the detail screen receives the tapped position
      and shows exactly that position's lookup. */
  lemma PositionArgumentRoundTrip(positionName: string, s: Home, seed: ReadResult, exceptionMessage: string)
    ensures ArgumentOrEmpty(PositionArguments(positionName), POSITION_KEY) == positionName
    ensures SeedParses(seed) ==>
      var r := LoadEmployeesBy(s, PositionField, ArgumentOrEmpty(PositionArguments(positionName), POSITION_KEY),
                               seed, exceptionMessage);
      r.shown == Some(SearchByPosition(r.store, positionName))
  {
  }
}
